=== FILE: README.md ===
# Brochure content pipeline, modelled in Dafny

The backend turns a user's title, description and image URLs into an
AI-augmented brochure in three stages, each with a fixed non-AI fallback:

1. The **image describer** writes a description of each image.
2. The **content enhancer** rewrites the title and the description.
3. The **finalizer** asks for a final title, a final description and an
   ordering of the images. It reads all three out of the model's free-form
   reply with tolerant regular expressions.

The `createBrosure` handler does three things around the stages:

- it drops the image references that do not parse as URLs;
- it runs the three stages in order;
- it stores the result and sends it back.

This project models that pipeline as pure functions over immutable data. It
proves what each stage returns on each path: one entry per image, in order;
which fallback text appears, and when; how labelled fields and
`Position <p>: <n> - <reason>` lines are found; and what is stored and what
is sent back.

Modules, one per file:

- `Optional`: the `Option` type. `None` stands for JavaScript's `null`, or a
  failed call.
- `JsText`: the JavaScript built-ins the code relies on. These are the `\s`
  class, `trim()`, `split(/\s+/)`, `join(' ')`, `String(n)` and `parseInt` on
  decimal digits, plus the ASCII case folding of an `/i` pattern.
- `Search`: the leftmost-offset scan of a non-global regular-expression match.
- `LabelPattern`: the lazy labelled-field patterns, such as
  `/Enhanced Title:\s*(.+?)(?:\n|Enhanced Description:|$)/i`, written as
  explicit scans. The scan covers greedy `\s*` with backtracking, lazy `(.+?)`
  over characters that are not line terminators, and the ordered alternatives
  of the terminator group.
- `BrochureContent`: the records passed between stages.
- `LayoutParser`: `parseFinalBrochureContent`. This is the global `Position`
  pattern with `lastIndex` semantics, the greedy re-match of each whole
  match, and the in-order application to the identity layout.
- `AiService`: the shared first-success model loop and the three stages.
- `BrochureController`: `createBrosure`.

Some collaborators are parameters of the model:

- The Gemini client is a `Gemini` value. It holds whether an API key was
  configured, the model names tried in order, and a function giving each
  model's answer to each query. `None` stands for a thrown error.
- The URL parser is a predicate `isUrl`.
- The database is a predicate `store` that accepts or rejects a record.

## Model

| member | source | states |
|---|---|---|
| JsText.Trim | src/services/aiService.js:144 | `trim()` yields text with no leading or trailing `\s` character, obtained by removing a run of `\s` characters from each end |
| JsText.TrimIdempotent | src/services/aiService.js:215 | trimming an already trimmed reply changes nothing |
| JsText.SplitJoin | src/services/aiService.js:152-153 | splitting on `\s+` after joining words with single spaces gives back the same words |
| JsText.SplitSpaces | src/services/aiService.js:149 | `split(/\s+/)` gives at least one piece and no piece contains a `\s` character; it gives exactly one piece when the text holds no `\s` character |
| JsText.WordCountOfJoin | src/services/aiService.js:149-153 | the word count `split(/\s+/).length` of words joined by single spaces is the number of words |
| JsText.JoinAppend | src/services/aiService.js:153 | `join(' ')` followed by `+ '...'` is the single-space join of the same words with "..." on the last one |
| JsText.NatToString | src/services/aiService.js:34 | `String(n)` of an image number is a non-empty run of decimal digits with no leading zero, unless the number is 0 |
| JsText.DigitsOfNatToString | src/services/aiService.js:422-423 | `parseInt` of a number written in decimal gives back that number |
| JsText.SingleDigitValue | src/services/aiService.js:422-423 | `parseInt` of a one-digit string is that digit's value |
| Search.Leftmost | src/services/aiService.js:253 | a regex search reports the least start offset at which the pattern matches, and none exactly when no offset matches |
| LabelPattern.PositionHeaderAt | src/services/aiService.js:410 | `Position \d+:` at an offset: "Position " in any ASCII case, at least one digit, then a colon |
| LabelPattern.PositionHeaderAtIs | src/services/aiService.js:410 | conversely, "Position " in any ASCII case, one or more digits and a colon at an offset are a header that ends just past that colon |
| LabelPattern.ExtractEnhancedTitle | src/services/aiService.js:252-255 | null exactly when `Enhanced Title:` matches at no offset; otherwise a trimmed value read at the leftmost matching offset, ending at a newline, at `Enhanced Description:` or at the end |
| LabelPattern.ExtractEnhancedDescription | src/services/aiService.js:262-265 | null exactly when `Enhanced Description:` matches at no offset; otherwise a trimmed value read at the leftmost matching offset, ending at a newline or at the end |
| LabelPattern.ExtractFinalTitle | src/services/aiService.js:402-403 | null exactly when `FINAL TITLE:` matches at no offset; otherwise a trimmed value read at the leftmost matching offset, ending at a newline, at `FINAL DESCRIPTION:` or at the end |
| LabelPattern.ExtractFinalDescription | src/services/aiService.js:406-407 | null exactly when `FINAL DESCRIPTION:` matches at no offset; otherwise a trimmed value read at the leftmost matching offset, ending at a newline, at `IMAGE LAYOUT:` or at the end |
| LabelPattern.Extract | src/services/aiService.js:252-255 | a labelled-field extraction is null exactly when the pattern matches at no offset; otherwise it is the trimmed group of the leftmost match |
| LabelPattern.ExtractedFieldShape | src/services/aiService.js:253 | an extracted value is the trimmed run after the label and any spaces, which ends at the first offset where `\n`, the next label or the end of input matches |
| LabelPattern.ExtractedIsOneLine | src/services/aiService.js:262-265 | an extracted value never contains a line terminator, so a field never spans two lines |
| LabelPattern.ExtractOfCleanField | src/services/aiService.js:252-255 | when the first occurrence of the label is followed by spaces and a single-line run up to a terminator, the extraction is exactly that run, trimmed |
| LabelPattern.BareLineTerminatorDefeats | src/services/aiService.js:253 | a `\r` (or U+2028, U+2029) before any terminator makes that occurrence of the label fail to match |
| LayoutParser.PlacementPrefix | src/services/aiService.js:410 | a match of `Position \d+:\s*(\d+)\s*-` at an offset is a header, then only spaces, then a non-empty run of digits (the image number), then only spaces, then the dash |
| LayoutParser.PlacementPrefixUnique | src/services/aiService.js:410 | conversely, any header, spaces, digits, spaces and dash at an offset are exactly the parts the prefix match reports, so it matches in one way only |
| LayoutParser.LayoutMatchAt | src/services/aiService.js:410 | a whole match of the global layout pattern is non-empty, so the global search always advances |
| LayoutParser.LayoutMatchesPieces | src/services/aiService.js:410 | every whole match the global search returns is non-empty, and there are no more of them than characters after the starting offset |
| LayoutParser.LayoutMatchesEmpty | src/services/aiService.js:410-418 | the global search finds nothing, so `if (layoutMatches)` skips the loop, exactly when the pattern matches at no offset from the start on |
| LayoutParser.LayoutMatchesStep | src/services/aiService.js:410 | the global search returns every match in order: the leftmost whole match at or after the current offset comes first, and the search resumes where that whole match ended |
| LayoutParser.TwoLineMatches | src/services/aiService.js:410 | the reply `Position 1: 1 - a`, a line break, `Position 2: 1 - b` has two whole matches: the first line with its line break, then the second line |
| LayoutParser.Placements | src/services/aiService.js:419-421 | the `if (posMatch)` guard yields at most one placement per whole match |
| LayoutParser.PlacementsOfRematching | src/services/aiService.js:419-421 | when every whole match matches again, nothing is dropped: the k-th placement is the re-match of the k-th whole match |
| LayoutParser.GreedyStart | src/services/aiService.js:420 | the greedy `\s*` before `(.+)` gives back spaces only as far as needed: `(.+)` starts at the latest offset of the space run whose character `.` matches, every later offset holds a line terminator, and it fails only when every offset does |
| LayoutParser.PrefixInSlice | src/services/aiService.js:410-420 | the `Position \d+:\s*(\d+)\s*-` prefix found in the reply is found again, at the same offsets, at the start of the whole match cut out of it |
| LayoutParser.CaptureStart | src/services/aiService.js:410 | the lazy `(.+?)` of a whole match starts after the dash, inside the spaces that follow it, on a character `.` matches, and before the match ends |
| LayoutParser.RematchFromParts | src/services/aiService.js:420-423 | the re-match pattern matches at the start of a whole match and reads the same image-number digits as the global pattern did |
| LayoutParser.PlacementAtValue | src/services/aiService.js:420-423 | the re-match at an offset reads the position from the header's digits, the image number from the digits before the dash, and the reasoning from where greedy `(.+)` starts to the end of that line, trimmed |
| LayoutParser.RematchAtStartIsFound | src/services/aiService.js:420 | when the re-match pattern matches at the start of a whole match, `match.match(...)` reports that match |
| LayoutParser.PlacementOfCleanLine | src/services/aiService.js:420-423 | a line `Position <p>: <n> - <reasoning>` re-matches as position p, image number n, and the rest of the line after the dash and its spaces, trimmed |
| LayoutParser.ShortLinePlacement | src/services/aiService.js:420-423 | a line `Position <d>: <n> - <reasoning>` with one-digit numbers and single spaces re-matches as position d, image number n, and the trimmed rest of the line |
| LayoutParser.MatchesOfCleanLine | src/services/aiService.js:410 | a reply that is one such line, with no line break and no `Position <n>:` header inside its reasoning, is exactly one whole match |
| LayoutParser.WholeMatchRematches | src/services/aiService.js:410-421 | every whole match of the global pattern matches the re-match pattern again, so `posMatch` is never null |
| LayoutParser.EveryMatchPlaced | src/services/aiService.js:410-424 | there are exactly as many parsed placements as whole matches: the `if (posMatch)` guard never drops one |
| JsText.SplitAfterWord | src/services/aiService.js:152-153 | a word, one space and text starting with a non-space split into that word followed by the split of the rest |
| LayoutParser.LastPlacementFor | src/services/aiService.js:419-434 | no placement decides an entry exactly when none names its image number; otherwise the deciding placement names it and no later placement does |
| LayoutParser.ApplyPlacementsLastWins | src/services/aiService.js:418-435 | applying the placements in order keeps the layout's length, and each entry ends as the last placement naming its image left it, or unchanged if none does |
| LayoutParser.ParseLayout | src/services/aiService.js:410-435 | the layout has one entry per image, each keeping its image and having a reasoning; it is the identity layout with 'Default positioning' except where a later in-range placement overwrites position and reasoning |
| LayoutParser.ParseLayoutExample | src/services/aiService.js:410-435 | with three images, the reply `Position 2: 1 - looks bright` gives entry 1 position 2 and the reasoning "looks bright"; entries 2 and 3 keep positions 2 and 3 and 'Default positioning' |
| LayoutParser.ParseLayoutTwoLines | src/services/aiService.js:410-435 | with one image, the reply `Position 1: 1 - a`, a line break, `Position 2: 1 - b` names image 1 twice and the later line wins: the entry gets position 2 and the reasoning "b" |
| LayoutParser.NoHeaderKeepsIdentity | src/services/aiService.js:410-416 | a reply without any `Position <n>:` header gives the identity layout with 'Default positioning' |
| BrochureContent.IdentityLayout | src/services/aiService.js:412-416 | the default layout has one entry per image, entry k keeping image k at position k + 1 with the given reasoning |
| BrochureContent.IdentityLayoutIs | src/services/aiService.js:412-416 | a layout keeps every image at its own 1-based position with the given reasoning exactly when it is the default layout |
| LayoutParser.ParseFinalBrochureContent | src/services/aiService.js:399-441 | a missing FINAL TITLE or FINAL DESCRIPTION label yields the literal 'Enhanced Title' or 'Enhanced Description'; a present one yields its extraction |
| AiService.TryModels | src/services/aiService.js:128-165 | the model loop reports exhaustion exactly when every model fails; otherwise it yields the answer of the first model that succeeds |
| AiService.TryModelsDependsOnAnswers | src/services/aiService.js:130-162 | the loop's outcome depends only on the listed models' answers to that query |
| AiService.SourceModelsAsk | src/services/aiService.js:186-188 | with the source's single model `gemini-1.5-flash`, the loop fails exactly when that model fails, and otherwise yields that model's answer |
| AiService.FallbacksDiffer | src/services/aiService.js:31-35 | the numbered fallback "Professional image N showcasing quality and style." never equals the unnumbered one |
| AiService.LimitWords | src/services/aiService.js:148-156 | a description of at most 25 words is returned unchanged |
| AiService.LimitWordsKeepsFirstWords | src/services/aiService.js:149-153 | a trimmed description of more than 25 words becomes its first 20 words separated by single spaces, the 20th followed by "...", and it splits back into exactly those words |
| AiService.LimitWordsBound | src/services/aiService.js:148-156 | whatever the model answers, the kept description has at most 25 words |
| AiService.GenerateDescription | src/services/aiService.js:117-171 | when every model fails, the description is the unnumbered fallback. Otherwise it has at most 25 words: the trimmed answer itself when that has at most 25 words, else that answer's first 20 words separated by single spaces, the 20th followed by "..." |
| AiService.AnalyzeSingleImage | src/services/aiService.js:96-110 | without an API key, or when every model fails, the description is the unnumbered fallback; on an answer it has at most 25 words and is the trimmed answer, or its first 20 words joined by single spaces with "..." when it has more than 25 |
| AiService.AnalyzeImages | src/services/aiService.js:27-61 | one description per URL in input order, with imageUrl the URL and imageNumber its 1-based index; without an API key each description is the numbered fallback; with one, each description is that image's own model answer or fallback |
| AiService.OrInput | src/services/aiService.js:224-225 | `extracted \|\| input` is the input when the extraction is null or empty, and a non-empty extraction otherwise |
| AiService.GenerateEnhancedContent | src/services/aiService.js:179-245 | when every model fails the title and description come back unchanged; on an answer each field is its own extraction from the trimmed reply when that is non-empty, and its own input when the extraction is null or empty, independently of the other field |
| AiService.AnalyzeAllImagesTogether | src/services/aiService.js:69-89 | without an API key, or when every model fails, the title and description come back unchanged; on an answer each field is its own extraction when that is non-empty, and its own input otherwise, independently of the other field |
| AiService.EnhancedFieldsNonEmpty | src/services/aiService.js:220-226 | an enhanced field is empty only when its input was empty |
| AiService.GenerateFinalBrochureContent | src/services/aiService.js:309-391 | one layout entry per image, each keeping its image and having a reasoning. When every model fails: the enhanced title and description and the identity layout with 'Default positioning'. On an answer: the two extractions from the trimmed reply, each defaulting to its literal fallback, and the layout parsed from it |
| AiService.FinalizeBrochureContent | src/services/aiService.js:273-301 | one layout entry per image, each keeping its image, on every path. Without an API key: the enhanced text and positions 1..N with no reasoning. When every model fails: the enhanced text and 'Default positioning'. On an answer: the parsed reply |
| AiService.ReasoningAbsentIffUninitialized | src/services/aiService.js:275-283 | a layout entry lacks a reasoning exactly when no API key is configured |
| AiService.LiteralTitleOnlyFromAnswer | src/services/aiService.js:402-403 | the literal title 'Enhanced Title' appears only after a model answered, because the failure paths echo the enhanced title |
| AiService.FinalizeDependsOnAnswers | src/services/aiService.js:309-391 | two clients that agree on the key, the model list and the answers to the finalizing query give the same final content |
| BrochureController.FilterValidUrls | src/controllers/brochureController.js:15-22 | a reference is kept exactly when it parses as a URL, and the result is no longer than the input |
| BrochureController.FilterAppend | src/controllers/brochureController.js:15-22 | filtering distributes over concatenation, so the accepted references keep their relative order |
| BrochureController.FilterKeepsValid | src/controllers/brochureController.js:15-22 | a list whose references all parse is kept whole |
| BrochureController.FilterIdempotent | src/controllers/brochureController.js:15-22 | filtering the accepted references again changes nothing |
| BrochureController.BuildBrochure | src/controllers/brochureController.js:24-31 | the final layout has one entry per accepted URL, in order, numbered 1..N, and each entry's image is the describer's description of that URL |
| BrochureController.BuildWithKey | src/controllers/brochureController.js:24-31 | with an API key the finalizer runs on the describer's and the enhancer's results: when no model answers it, the brochure is the enhanced text with the described images in order and 'Default positioning'; when one answers, it is that trimmed reply parsed against the described images |
| BrochureController.BuildWithoutKey | src/controllers/brochureController.js:24-31 | without an API key the brochure keeps the user's title and description, and each image with its numbered fallback at its own position with no reasoning |
| BrochureController.BuildWhenModelsFail | src/controllers/brochureController.js:24-31 | when no model answers anything, the brochure keeps the user's text, and each image with the unnumbered fallback at its own position with 'Default positioning' |
| BrochureController.CreateBrochure | src/controllers/brochureController.js:11-57 | a 200 response is sent exactly when a record is stored. With an image array, the record offered to the store is the user id, the unmodified title and description, the accepted URLs and the content the three stages build from them, and it is stored exactly when the store accepts it. The reply carries that same content. A missing `imageUrls` array or a refused record gives the 500 "Something went wrong" envelope |
| BrochureController.AcceptedRecordSucceeds | src/controllers/brochureController.js:49-53 | when the store accepts the record built from the request, the handler answers 200 with the content built from the accepted URLs |
| BrochureController.DropsUnparsableReference | src/controllers/brochureController.js:15-22 | with one unparsable and one valid reference, only the valid one is stored and laid out |

## Left out

- The Gemini client is left out (src/services/aiService.js:1-20, and `getGenerativeModel`/`generateContent`). It is a foreign library reached over the network, so it is replaced by the `Gemini` parameter. The prompt texts and the `console` logging are not modelled. A `Query` carries only what its prompt embeds.
- The constructor sets `isInitialized` and `genAI` together, so the model uses one flag for both. The `!this.genAI` guards inside the three `generate…WithGemini` methods therefore never fire after `isInitialized` was checked.
- Some catch blocks cannot be reached from `createBrosure`, so no path leads to them:
  - the outer ones of `analyzeImagesWithAI` (lines 52-60), `analyzeAllImagesTogether` (82-88), `analyzeSingleImage` (106-109) and `finalizeBrochureContent` (290-300), because the code inside them catches every error itself;
  - the one in `parseFinalBrochureContent` (443-454), because nothing in that method throws on a string reply.

  As a result, the numbered fallback appears only on the no-key path. That catch in `parseFinalBrochureContent` would return the literal 'Enhanced Title'/'Enhanced Description', not the enhanced text, just as a missing label does (lines 403 and 407); the model returns those literals.
- `AiService.AnalyzeSingleImage` keeps the `!isInitialized` branch of lines 98-100. The describer reaches that branch only with a key, so it is never taken there.
- The URL parser (the WHATWG URL Standard, section 4.4 "URL parsing") is the `isUrl` parameter.
- The database is the `store` parameter. This covers the Mongoose schema, with its `required` and `trim` options, the cast of the user id, and timestamps. The model states what is handed to `Brochure.create`. Trimming and validation happen inside the store.
- The success reply carries `{ finalContent }` only (src/controllers/brochureController.js:53). No identifier of the stored record is part of it.
- AiService.AnalyzeImages: a model's answer is a function of the model name and the query, so two images with the same URL get the same description. The source makes a separate call per image (src/services/aiService.js:40-49), and a real model may answer the two calls differently.
- BrochureController.CreateBrochure: the title and description are strings. A request body without them is not modelled; in the source `undefined` would flow into `|| title`, the prompts and `Brochure.create` (src/controllers/brochureController.js:13, 28, 49-52).
- `getBrosure` and `deleteBrosure`, authentication, uploads and the Express wiring are outside the pipeline.
- The stages are `async` in the source but run one after another, so each is a pure function here.
- `DigitsValue` is exact. JavaScript's `parseInt` loses precision above 2^53 and turns a run of more than about 308 digits into `Infinity`. An image number that large is out of range anyway; a position that large is stored inexactly by the source.
- Strings are sequences of Unicode scalar values, not UTF-16 code units. A character outside the Basic Multilingual Plane is one `.` here and two in JavaScript. The captured text is the same, because `.` matches either surrogate half.
- LayoutParser.LayoutMatches: the terminator `Position \d+:` of a match is consumed. A second placement on the same line is therefore skipped, and the greedy re-match puts the header text into the previous entry's reasoning. This is modelled through `TerminatorLength`, but no lemma works through a concrete reply that shows it.

=== FILE: ai_service.dfy ===
/** The three AI-backed stages of `AIService`, with the Gemini client replaced
    by an oracle: whether an API key was configured, the model names tried in
    order, and each model's answer to each query. */
module AiService {
  import opened Optional
  import opened JsText
  import opened LabelPattern
  import opened BrochureContent
  import opened LayoutParser

  /** What a prompt asks for; the prompt wording is not modelled, only what it embeds. */
  datatype Query =
    | DescribeImage(imageUrl: string)
    | EnhanceText(title: string, description: string)
    | PlanBrochure(enhanced: EnhancedContent, images: seq<ImageDescription>)

  /** The client. `generate(model, query)` is the text of the model's answer,
      or `None` when `generateContent` or reading the answer's text throws. */
  datatype Gemini = Gemini(initialized: bool, models: seq<string>, generate: (string, Query) -> Option<string>)

  /** The model list every stage of the source tries. */
  const SourceModels: seq<string> := ["gemini-1.5-flash"]

  datatype Attempt = Answered(text: string) | Exhausted

  /** Model `k` is the first in the list to answer `q`, and answers `text`. */
  predicate FirstAnswer(models: seq<string>, generate: (string, Query) -> Option<string>, q: Query, k: nat, text: string) {
    && k < |models|
    && generate(models[k], q) == Some(text)
    && forall j :: 0 <= j < k ==> generate(models[j], q).None?
  }

  /** The `for (const modelName of modelsToTry)` loop shared by the three
      stages: the first answer, or exhaustion once every model has failed. */
  function TryModels(models: seq<string>, generate: (string, Query) -> Option<string>, q: Query): (r: Attempt)
    ensures r.Exhausted? <==> forall k :: 0 <= k < |models| ==> generate(models[k], q).None?
    ensures r.Answered? ==> exists k :: FirstAnswer(models, generate, q, k, r.text)
    decreases |models|
  {
    if models == [] then Exhausted
    else match generate(models[0], q)
      case Some(text) =>
        assert FirstAnswer(models, generate, q, 0, text);
        Answered(text)
      case None =>
        var r := TryModels(models[1..], generate, q);
        if r.Exhausted? then r
        else
          var k: nat :| FirstAnswer(models[1..], generate, q, k, r.text);
          assert FirstAnswer(models, generate, q, k + 1, r.text);
          r
  }

  /** The attempt depends only on what the listed models answer to that one query. */
  lemma {:induction false} TryModelsDependsOnAnswers(models: seq<string>, g1: (string, Query) -> Option<string>,
                                                     g2: (string, Query) -> Option<string>, q: Query)
    requires forall k :: 0 <= k < |models| ==> g1(models[k], q) == g2(models[k], q)
    ensures TryModels(models, g1, q) == TryModels(models, g2, q)
    decreases |models|
  {
    if models != [] {
      TryModelsDependsOnAnswers(models[1..], g1, g2, q);
    }
  }

  function Ask(ai: Gemini, q: Query): Attempt {
    TryModels(ai.models, ai.generate, q)
  }

  /** With the source's single-model list, a query is answered exactly when
      that one model answers it, and the answer is that model's text. */
  lemma SourceModelsAsk(ai: Gemini, q: Query)
    requires ai.models == SourceModels
    ensures Ask(ai, q).Exhausted? <==> ai.generate("gemini-1.5-flash", q).None?
    ensures Ask(ai, q).Answered? ==> ai.generate("gemini-1.5-flash", q) == Some(Ask(ai, q).text)
  {
    if Ask(ai, q).Answered? {
      var k: nat :| FirstAnswer(ai.models, ai.generate, q, k, Ask(ai, q).text);
    }
  }

  // ---------------------------------------------------------------------------
  // Image describer

  /** The fallback of `analyzeSingleImage` and `generateDescriptionWithGemini`. */
  const ImageFallback := "Professional image showcasing quality and style."

  /** The fallback of `analyzeImagesWithAI`, which names the image's number. */
  function NumberedImageFallback(n: nat): string {
    "Professional image " + NatToString(n) + " showcasing quality and style."
  }

  /** The two fallbacks never coincide: the numbered one has a digit where the
      other has the `s` of "showcasing". */
  lemma FallbacksDiffer(n: nat)
    ensures NumberedImageFallback(n) != ImageFallback
  {
    var d := NatToString(n);
    assert NumberedImageFallback(n)[19] == d[0];
    assert ImageFallback[19] == 's';
  }

  const MaxWords := 25
  const KeptWords := 20

  /** The word-count guard: text of more than 25 `\s+`-separated words becomes
      its first 20 words joined by single spaces, then `...`. */
  function LimitWords(d: string): (r: string)
    ensures WordCount(d) <= MaxWords ==> r == d
  {
    var words := SplitSpaces(d);
    if |words| > MaxWords then Join(words[..KeptWords], " ") + "..." else d
  }

  /** A truncated description is exactly the first 20 words of the answer,
      separated by single spaces, the last carrying the ellipsis; it splits
      back into those words. */
  lemma LimitWordsKeepsFirstWords(d: string)
    requires IsTrimmed(d) && WordCount(d) > MaxWords
    ensures var words := SplitSpaces(d);
      var marked := words[..KeptWords - 1] + [words[KeptWords - 1] + "..."];
      && LimitWords(d) == Join(marked, " ")
      && SplitSpaces(LimitWords(d)) == marked
  {
    var words := SplitSpaces(d);
    SplitTrimmedIsWords(d);
    var kept := words[..KeptWords];
    JoinAppend(kept, "...");
    var marked := kept[..KeptWords - 1] + [kept[KeptWords - 1] + "..."];
    assert forall i :: 0 <= i < |marked| ==> IsWord(marked[i]) by {
      assert IsWord(kept[KeptWords - 1]);
      assert NoSpaces("...");
      assert forall i :: 0 <= i < KeptWords - 1 ==> marked[i] == words[i];
    }
    SplitJoin(marked);
    assert kept[..KeptWords - 1] == words[..KeptWords - 1];
  }

  /** `r` is `d` when `d` has at most 25 words, and otherwise the first 20
      words of `d` separated by single spaces, the last of them followed by the
      ellipsis; such an `r` splits back into those words. */
  predicate IsWordLimitOf(d: string, r: string) {
    var words := SplitSpaces(d);
    if |words| <= MaxWords then r == d
    else
      var marked := words[..KeptWords - 1] + [words[KeptWords - 1] + "..."];
      && r == Join(marked, " ")
      && SplitSpaces(r) == marked
  }

  /** Whatever the model answers, the description kept has at most 25 words. */
  lemma LimitWordsBound(d: string)
    requires IsTrimmed(d)
    ensures WordCount(LimitWords(d)) <= MaxWords
  {
    if WordCount(d) > MaxWords {
      LimitWordsKeepsFirstWords(d);
    }
  }

  /** `generateDescriptionWithGemini`. */
  function GenerateDescription(ai: Gemini, imageUrl: string): (r: string)
    ensures Ask(ai, DescribeImage(imageUrl)).Exhausted? ==> r == ImageFallback
    ensures Ask(ai, DescribeImage(imageUrl)).Answered? ==>
      var answer := Trim(Ask(ai, DescribeImage(imageUrl)).text);
      WordCount(r) <= MaxWords && IsWordLimitOf(answer, r)
  {
    match Ask(ai, DescribeImage(imageUrl))
    case Exhausted => ImageFallback
    case Answered(text) =>
      var answer := Trim(text);
      LimitWordsBound(answer);
      if WordCount(answer) > MaxWords then
        LimitWordsKeepsFirstWords(answer);
        LimitWords(answer)
      else LimitWords(answer)
  }

  /** `analyzeSingleImage`: the unnumbered fallback without an API key or when
      every model fails, else the trimmed answer limited to 25 words. */
  function AnalyzeSingleImage(ai: Gemini, imageUrl: string): (r: string)
    ensures !ai.initialized || Ask(ai, DescribeImage(imageUrl)).Exhausted? ==> r == ImageFallback
    ensures ai.initialized && Ask(ai, DescribeImage(imageUrl)).Answered? ==>
      var answer := Trim(Ask(ai, DescribeImage(imageUrl)).text);
      WordCount(r) <= MaxWords && IsWordLimitOf(answer, r)
  {
    if !ai.initialized then ImageFallback else GenerateDescription(ai, imageUrl)
  }

  /** `analyzeImagesWithAI`: one description per URL, in input order, numbered
      from 1. Without an API key every description is the numbered fallback;
      with one, each image gets its own model answer or the unnumbered fallback. */
  function AnalyzeImages(ai: Gemini, imageUrls: seq<string>): (r: seq<ImageDescription>)
    ensures |r| == |imageUrls|
    ensures forall k :: 0 <= k < |r| ==> r[k].imageUrl == imageUrls[k] && r[k].imageNumber == k + 1
    ensures !ai.initialized ==> forall k :: 0 <= k < |r| ==> r[k].description == NumberedImageFallback(k + 1)
    ensures ai.initialized ==> forall k :: 0 <= k < |r| ==> r[k].description == GenerateDescription(ai, imageUrls[k])
  {
    if !ai.initialized then
      seq(|imageUrls|, k requires 0 <= k < |imageUrls| =>
        ImageDescription(imageUrls[k], k + 1, NumberedImageFallback(k + 1)))
    else
      seq(|imageUrls|, k requires 0 <= k < |imageUrls| =>
        ImageDescription(imageUrls[k], k + 1, AnalyzeSingleImage(ai, imageUrls[k])))
  }

  // ---------------------------------------------------------------------------
  // Content enhancer

  /** `extracted || input`: a non-empty extraction is used; an absent or empty
      one falls back to the input. */
  function OrInput(extracted: Option<string>, input: string): (r: string)
    ensures extracted.Some? && extracted.value != "" ==> r == extracted.value
    ensures (extracted.None? || extracted == Some("")) ==> r == input
  {
    if extracted.Some? && extracted.value != "" then extracted.value else input
  }

  /** What an answer to the enhancing prompt makes of one field: the trimmed
      group of its label when that is non-empty, else the field's input. */
  predicate EnhancedField(extracted: Option<string>, input: string, field: string) {
    && (extracted.Some? && extracted.value != "" ==> field == extracted.value)
    && (extracted.None? || extracted == Some("") ==> field == input)
  }

  /** `generateEnhancedContentWithGemini`: when every model fails the input
      comes back unchanged. On an answer, each field is its own extraction or,
      when that is absent or empty, its own input: the title and the
      description fall back independently. */
  function GenerateEnhancedContent(ai: Gemini, title: string, description: string): (r: EnhancedContent)
    ensures Ask(ai, EnhanceText(title, description)).Exhausted? ==> r == EnhancedContent(title, description)
    ensures Ask(ai, EnhanceText(title, description)).Answered? ==>
      var content := Trim(Ask(ai, EnhanceText(title, description)).text);
      && EnhancedField(ExtractEnhancedTitle(content), title, r.enhancedTitle)
      && EnhancedField(ExtractEnhancedDescription(content), description, r.enhancedDescription)
  {
    match Ask(ai, EnhanceText(title, description))
    case Exhausted => EnhancedContent(title, description)
    case Answered(text) =>
      var content := Trim(text);
      EnhancedContent(
        OrInput(ExtractEnhancedTitle(content), title),
        OrInput(ExtractEnhancedDescription(content), description))
  }

  /** `analyzeAllImagesTogether`: without an API key the input comes back
      unchanged; with one, the enhancer's result. */
  function AnalyzeAllImagesTogether(ai: Gemini, title: string, description: string): (r: EnhancedContent)
    ensures !ai.initialized ==> r == EnhancedContent(title, description)
    ensures Ask(ai, EnhanceText(title, description)).Exhausted? ==> r == EnhancedContent(title, description)
    ensures ai.initialized && Ask(ai, EnhanceText(title, description)).Answered? ==>
      var content := Trim(Ask(ai, EnhanceText(title, description)).text);
      && EnhancedField(ExtractEnhancedTitle(content), title, r.enhancedTitle)
      && EnhancedField(ExtractEnhancedDescription(content), description, r.enhancedDescription)
  {
    if !ai.initialized then EnhancedContent(title, description)
    else GenerateEnhancedContent(ai, title, description)
  }

  /** An enhanced field is empty only when its input was. */
  lemma EnhancedFieldsNonEmpty(ai: Gemini, title: string, description: string)
    ensures AnalyzeAllImagesTogether(ai, title, description).enhancedTitle == "" ==> title == ""
    ensures AnalyzeAllImagesTogether(ai, title, description).enhancedDescription == "" ==> description == ""
  {
  }

  // ---------------------------------------------------------------------------
  // Finalizer

  /** `generateFinalBrochureContent`: when every model fails, the enhanced text
      over the identity layout with default reasoning; on an answer, what the
      trimmed reply parses to. */
  function GenerateFinalBrochureContent(ai: Gemini, enhanced: EnhancedContent, images: seq<ImageDescription>): (r: FinalContent)
    ensures |r.imageLayout| == |images|
    ensures forall k :: 0 <= k < |images| ==> r.imageLayout[k].image == images[k] && r.imageLayout[k].reasoning.Some?
    ensures Ask(ai, PlanBrochure(enhanced, images)).Exhausted? ==>
      && r.finalTitle == enhanced.enhancedTitle
      && r.finalDescription == enhanced.enhancedDescription
      && IsIdentityLayout(r.imageLayout, images, Some(DefaultReasoning))
    ensures Ask(ai, PlanBrochure(enhanced, images)).Answered? ==>
      var content := Trim(Ask(ai, PlanBrochure(enhanced, images)).text);
      && r.finalTitle == ExtractFinalTitle(content).GetOr(TitleFallback)
      && r.finalDescription == ExtractFinalDescription(content).GetOr(DescriptionFallback)
      && r.imageLayout == ParseLayout(content, images)
  {
    match Ask(ai, PlanBrochure(enhanced, images))
    case Exhausted =>
      FinalContent(enhanced.enhancedTitle, enhanced.enhancedDescription, IdentityLayout(images, Some(DefaultReasoning)))
    case Answered(text) => ParseFinalBrochureContent(Trim(text), images)
  }

  /** `finalizeBrochureContent`. Every path yields one layout entry per image,
      in order, each keeping its image. Without an API key the enhanced text is
      kept and the entries have no reasoning; when every model fails it is kept
      and the entries say "Default positioning"; on an answer the fields come
      from the reply, with literal fallbacks for missing labels. */
  function FinalizeBrochureContent(ai: Gemini, enhanced: EnhancedContent, images: seq<ImageDescription>): (r: FinalContent)
    ensures |r.imageLayout| == |images|
    ensures forall k :: 0 <= k < |images| ==> r.imageLayout[k].image == images[k]
    ensures !ai.initialized ==>
      && r.finalTitle == enhanced.enhancedTitle
      && r.finalDescription == enhanced.enhancedDescription
      && IsIdentityLayout(r.imageLayout, images, None)
    ensures ai.initialized && Ask(ai, PlanBrochure(enhanced, images)).Exhausted? ==>
      && r.finalTitle == enhanced.enhancedTitle
      && r.finalDescription == enhanced.enhancedDescription
      && IsIdentityLayout(r.imageLayout, images, Some(DefaultReasoning))
    ensures ai.initialized && Ask(ai, PlanBrochure(enhanced, images)).Answered? ==>
      var content := Trim(Ask(ai, PlanBrochure(enhanced, images)).text);
      && r.finalTitle == ExtractFinalTitle(content).GetOr(TitleFallback)
      && r.finalDescription == ExtractFinalDescription(content).GetOr(DescriptionFallback)
      && r.imageLayout == ParseLayout(content, images)
  {
    if !ai.initialized then
      FinalContent(enhanced.enhancedTitle, enhanced.enhancedDescription, IdentityLayout(images, None))
    else GenerateFinalBrochureContent(ai, enhanced, images)
  }

  /** The finalizer's three outcomes are told apart by the reasoning of its
      entries: absent exactly when no API key is configured. */
  lemma ReasoningAbsentIffUninitialized(ai: Gemini, enhanced: EnhancedContent, images: seq<ImageDescription>, k: nat)
    requires k < |images|
    ensures FinalizeBrochureContent(ai, enhanced, images).imageLayout[k].reasoning.None? <==> !ai.initialized
  {
  }

  /** The literal "Enhanced Title" appears only after a model answered without a
      FINAL TITLE label: the failure paths echo the enhanced title instead. */
  lemma LiteralTitleOnlyFromAnswer(ai: Gemini, enhanced: EnhancedContent, images: seq<ImageDescription>)
    ensures FinalizeBrochureContent(ai, enhanced, images).finalTitle == TitleFallback ==>
      enhanced.enhancedTitle == TitleFallback || (ai.initialized && Ask(ai, PlanBrochure(enhanced, images)).Answered?)
  {
  }

  /** Given the same answers, the finalizer gives the same content. */
  lemma FinalizeDependsOnAnswers(ai1: Gemini, ai2: Gemini, enhanced: EnhancedContent, images: seq<ImageDescription>)
    requires ai1.initialized == ai2.initialized && ai1.models == ai2.models
    requires forall k :: 0 <= k < |ai1.models| ==>
      ai1.generate(ai1.models[k], PlanBrochure(enhanced, images)) == ai2.generate(ai1.models[k], PlanBrochure(enhanced, images))
    ensures FinalizeBrochureContent(ai1, enhanced, images) == FinalizeBrochureContent(ai2, enhanced, images)
  {
    TryModelsDependsOnAnswers(ai1.models, ai1.generate, ai2.generate, PlanBrochure(enhanced, images));
  }
}

=== FILE: brochure_content.dfy ===
/** The records the pipeline passes from stage to stage. */
module BrochureContent {
  import opened Optional

  /** One analysed image: its URL, its 1-based place in the request, and a short description. */
  datatype ImageDescription = ImageDescription(imageUrl: string, imageNumber: nat, description: string)

  datatype EnhancedContent = EnhancedContent(enhancedTitle: string, enhancedDescription: string)

  /** An image description spread into a layout entry. `reasoning` is `None`
      where the source builds the entry without a `reasoning` property. */
  datatype LayoutEntry = LayoutEntry(image: ImageDescription, suggestedPosition: nat, reasoning: Option<string>)

  datatype FinalContent = FinalContent(finalTitle: string, finalDescription: string, imageLayout: seq<LayoutEntry>)

  const DefaultReasoning := "Default positioning"

  /** Entry `k` keeps image `k` and sits at position `k + 1`. */
  predicate IsIdentityLayout(layout: seq<LayoutEntry>, images: seq<ImageDescription>, reasoning: Option<string>) {
    && |layout| == |images|
    && forall k :: 0 <= k < |layout| ==> layout[k] == LayoutEntry(images[k], k + 1, reasoning)
  }

  /** The layout that keeps every image where the request put it: each image
      becomes an entry at its 1-based place, with the given reasoning, or with
      no reasoning property at all when `reasoning` is `None`. */
  function IdentityLayout(images: seq<ImageDescription>, reasoning: Option<string>): (r: seq<LayoutEntry>)
    ensures IsIdentityLayout(r, images, reasoning)
  {
    seq(|images|, k requires 0 <= k < |images| => LayoutEntry(images[k], k + 1, reasoning))
  }

  /** The identity layout is the only layout that keeps every image in place. */
  lemma IdentityLayoutIs(layout: seq<LayoutEntry>, images: seq<ImageDescription>, reasoning: Option<string>)
    ensures IsIdentityLayout(layout, images, reasoning) <==> layout == IdentityLayout(images, reasoning)
  {
    hide IdentityLayout;
    if IsIdentityLayout(layout, images, reasoning) {
      var r := IdentityLayout(images, reasoning);
      assert forall k :: 0 <= k < |r| ==> r[k] == layout[k];
    }
  }
}

=== FILE: brochure_controller.dfy ===
/** `createBrosure`: drop image references that do not parse as URLs, run the
    three stages in order, store the result, and answer with it. URL parsing
    and the database are oracles. */
module BrochureController {
  import opened Optional
  import opened BrochureContent
  import opened AiService
  import opened JsText
  import opened LayoutParser

  /** The request body, plus the user id the authentication layer attached.
      `imageUrls` is `None` when the body carries no array there. */
  datatype CreateRequest = CreateRequest(userId: string, title: string, description: string, imageUrls: Option<seq<string>>)

  /** What `Brochure.create` is given. */
  datatype BrochureRecord = BrochureRecord(
    userId: string, title: string, description: string, imageUrls: seq<string>, aiResponse: FinalContent)

  /** The two JSON envelopes of the response handler. */
  datatype Reply = Success(finalContent: FinalContent) | Failure(message: string)

  datatype Response = Response(status: nat, reply: Reply)

  /** `sendError(res)` with its defaults. */
  const ServerError := Response(500, Failure("Something went wrong"))

  /** What the handler leaves behind: the stored record, if any, and the response. */
  datatype Outcome = Outcome(stored: Option<BrochureRecord>, response: Response)

  /** The `imageUrls.filter` whose predicate is "`new URL(url)` does not throw":
      the accepted references, in their original order. */
  function FilterValidUrls(urls: seq<string>, isUrl: string -> bool): (r: seq<string>)
    ensures |r| <= |urls|
    ensures forall u :: u in r <==> u in urls && isUrl(u)
  {
    if urls == [] then []
    else if isUrl(urls[0]) then [urls[0]] + FilterValidUrls(urls[1..], isUrl)
    else FilterValidUrls(urls[1..], isUrl)
  }

  /** Filtering distributes over concatenation, so the accepted references keep
      their relative order. */
  lemma {:induction false} FilterAppend(a: seq<string>, b: seq<string>, isUrl: string -> bool)
    ensures FilterValidUrls(a + b, isUrl) == FilterValidUrls(a, isUrl) + FilterValidUrls(b, isUrl)
    decreases |a|
  {
    if a != [] {
      assert (a + b)[1..] == a[1..] + b;
      FilterAppend(a[1..], b, isUrl);
    } else {
      assert a + b == b;
    }
  }

  /** A list of URLs that all parse is kept whole. */
  lemma {:induction false} FilterKeepsValid(urls: seq<string>, isUrl: string -> bool)
    requires forall k :: 0 <= k < |urls| ==> isUrl(urls[k])
    ensures FilterValidUrls(urls, isUrl) == urls
    decreases |urls|
  {
    if urls != [] {
      FilterKeepsValid(urls[1..], isUrl);
    }
  }

  /** Filtering twice is filtering once. */
  lemma FilterIdempotent(urls: seq<string>, isUrl: string -> bool)
    ensures FilterValidUrls(FilterValidUrls(urls, isUrl), isUrl) == FilterValidUrls(urls, isUrl)
  {
    var r := FilterValidUrls(urls, isUrl);
    assert forall k :: 0 <= k < |r| ==> isUrl(r[k]) by {
      assert forall k :: 0 <= k < |r| ==> r[k] in r;
    }
    FilterKeepsValid(r, isUrl);
  }

  /** Steps 1 to 3 of `createBrosure`, in source order: describe the accepted
      images, enhance the text (which never sees the descriptions), then finalize. */
  function BuildBrochure(ai: Gemini, title: string, description: string, validUrls: seq<string>): (r: FinalContent)
    ensures |r.imageLayout| == |validUrls|
    ensures forall k :: 0 <= k < |validUrls| ==>
      && r.imageLayout[k].image.imageUrl == validUrls[k]
      && r.imageLayout[k].image.imageNumber == k + 1
    ensures forall k :: 0 <= k < |validUrls| ==> r.imageLayout[k].image == AnalyzeImages(ai, validUrls)[k]
  {
    var descriptions := AnalyzeImages(ai, validUrls);
    var enhanced := AnalyzeAllImagesTogether(ai, title, description);
    FinalizeBrochureContent(ai, enhanced, descriptions)
  }

  /** With an API key, the finalizer works on what the describer and the
      enhancer produced: when no model answers its query, the brochure carries
      the enhanced text and the described images in order with the default
      reasoning; when one answers, the brochure is that reply parsed against the
      described images. */
  lemma BuildWithKey(ai: Gemini, title: string, description: string, validUrls: seq<string>)
    requires ai.initialized
    ensures var r := BuildBrochure(ai, title, description, validUrls);
      var images := AnalyzeImages(ai, validUrls);
      var enhanced := AnalyzeAllImagesTogether(ai, title, description);
      var q := PlanBrochure(enhanced, images);
      && (Ask(ai, q).Exhausted? ==>
            && r.finalTitle == enhanced.enhancedTitle
            && r.finalDescription == enhanced.enhancedDescription
            && IsIdentityLayout(r.imageLayout, images, Some(DefaultReasoning)))
      && (Ask(ai, q).Answered? ==> r == ParseFinalBrochureContent(Trim(Ask(ai, q).text), images))
  {
  }

  /** Without an API key the brochure echoes the input: the user's title and
      description, the images in order with their numbered fallback text, and
      no reasoning. */
  lemma BuildWithoutKey(ai: Gemini, title: string, description: string, validUrls: seq<string>)
    requires !ai.initialized
    ensures var r := BuildBrochure(ai, title, description, validUrls);
      && r.finalTitle == title
      && r.finalDescription == description
      && forall k :: 0 <= k < |validUrls| ==>
           r.imageLayout[k] == LayoutEntry(ImageDescription(validUrls[k], k + 1, NumberedImageFallback(k + 1)), k + 1, None)
  {
  }

  /** When no model answers anything, the brochure keeps the user's text, lists
      the images in order with the unnumbered fallback, and gives each the
      default reasoning. */
  lemma BuildWhenModelsFail(ai: Gemini, title: string, description: string, validUrls: seq<string>)
    requires ai.initialized
    requires forall m, q :: ai.generate(m, q).None?
    ensures var r := BuildBrochure(ai, title, description, validUrls);
      && r.finalTitle == title
      && r.finalDescription == description
      && forall k :: 0 <= k < |validUrls| ==>
           r.imageLayout[k] == LayoutEntry(ImageDescription(validUrls[k], k + 1, ImageFallback), k + 1, Some(DefaultReasoning))
  {
    var descriptions := AnalyzeImages(ai, validUrls);
    var q := PlanBrochure(EnhancedContent(title, description), descriptions);
    assert forall k :: 0 <= k < |ai.models| ==> ai.generate(ai.models[k], EnhanceText(title, description)).None?;
    assert forall k :: 0 <= k < |ai.models| ==> ai.generate(ai.models[k], q).None?;
    forall k | 0 <= k < |validUrls|
      ensures descriptions[k].description == ImageFallback
    {
      assert forall j :: 0 <= j < |ai.models| ==> ai.generate(ai.models[j], DescribeImage(validUrls[k])).None?;
    }
  }

  /** `createBrosure`. A missing `imageUrls` array, or a store that refuses the
      record, yields the generic 500 error and nothing stored; otherwise the
      record holds the user's fields, the accepted URLs and the content the
      three stages build from them, and the 200 reply carries that same content. */
  function CreateBrochure(ai: Gemini, isUrl: string -> bool, store: BrochureRecord -> bool, req: CreateRequest): (r: Outcome)
    ensures r.response.status == 200 <==> r.stored.Some?
    ensures r.stored.None? ==> r.response == ServerError
    ensures req.imageUrls.None? ==> r == Outcome(None, ServerError)
    ensures req.imageUrls.Some? ==>
      var valid := FilterValidUrls(req.imageUrls.value, isUrl);
      var record := BrochureRecord(req.userId, req.title, req.description, valid,
                                   BuildBrochure(ai, req.title, req.description, valid));
      r.stored == (if store(record) then Some(record) else None)
    ensures r.stored.Some? ==>
      var record := r.stored.value;
      && req.imageUrls.Some?
      && store(record)
      && r.response.reply == Success(record.aiResponse)
      && record.userId == req.userId
      && record.title == req.title
      && record.description == req.description
      && record.imageUrls == FilterValidUrls(req.imageUrls.value, isUrl)
      && |record.aiResponse.imageLayout| == |record.imageUrls|
      && forall k :: 0 <= k < |record.imageUrls| ==>
           && record.aiResponse.imageLayout[k].image.imageUrl == record.imageUrls[k]
           && record.aiResponse.imageLayout[k].image.imageNumber == k + 1
  {
    match req.imageUrls
    case None => Outcome(None, ServerError)
    case Some(urls) =>
      var validUrls := FilterValidUrls(urls, isUrl);
      var finalContent := BuildBrochure(ai, req.title, req.description, validUrls);
      var record := BrochureRecord(req.userId, req.title, req.description, validUrls, finalContent);
      if store(record) then Outcome(Some(record), Response(200, Success(finalContent)))
      else Outcome(None, ServerError)
  }

  /** With an image array and a store that accepts the record built from it,
      the handler answers 200 with the content built from the accepted URLs. */
  lemma AcceptedRecordSucceeds(ai: Gemini, isUrl: string -> bool, store: BrochureRecord -> bool, req: CreateRequest)
    requires req.imageUrls.Some?
    requires var valid := FilterValidUrls(req.imageUrls.value, isUrl);
      store(BrochureRecord(req.userId, req.title, req.description, valid,
                           BuildBrochure(ai, req.title, req.description, valid)))
    ensures var valid := FilterValidUrls(req.imageUrls.value, isUrl);
      CreateBrochure(ai, isUrl, store, req).response
        == Response(200, Success(BuildBrochure(ai, req.title, req.description, valid)))
  {
    hide BuildBrochure;
  }

  /** A reference that does not parse is dropped silently: with one bad and one
      good reference, the record and the layout hold only the good one. */
  lemma DropsUnparsableReference(ai: Gemini, isUrl: string -> bool, store: BrochureRecord -> bool,
                                 req: CreateRequest, bad: string, good: string)
    requires req.imageUrls == Some([bad, good])
    requires !isUrl(bad) && isUrl(good)
    requires CreateBrochure(ai, isUrl, store, req).stored.Some?
    ensures var record := CreateBrochure(ai, isUrl, store, req).stored.value;
      && record.imageUrls == [good]
      && |record.aiResponse.imageLayout| == 1
      && record.aiResponse.imageLayout[0].image.imageUrl == good
  {
    hide BuildBrochure;
    assert [bad, good][1..] == [good];
    assert [good][1..] == [];
  }
}

=== FILE: js_text.dfy ===
/** The JavaScript string built-ins the brochure pipeline relies on: the `\s`
    character class, `String.prototype.trim`, `split(/\s+/)`, `join`,
    `String(n)` and `parseInt` on a run of decimal digits, plus the
    ASCII case folding of a non-unicode `/i` regular expression.
    Strings are sequences of Unicode scalar values rather than UTF-16 code
    units; every character the patterns single out lies in the Basic
    Multilingual Plane, so the two views agree on them. */
module JsText {

  /** `\s` in an ECMAScript regular expression, which is also the set that
      `trim()` strips: the WhiteSpace characters (TAB, VT, FF, ZWNBSP and
      every space separator) and the LineTerminator characters. */
  predicate IsJsSpace(c: char) {
    || c == '\t' || c == '\n' || c == '\U{000B}' || c == '\U{000C}' || c == '\r'
    || c == ' ' || c == '\U{00A0}' || c == '\U{1680}'
    || ('\U{2000}' <= c <= '\U{200A}')
    || c == '\U{2028}' || c == '\U{2029}' || c == '\U{202F}' || c == '\U{205F}'
    || c == '\U{3000}' || c == '\U{FEFF}'
  }

  /** The characters `.` refuses to match (no `s` flag). */
  predicate IsLineTerminator(c: char) {
    c == '\n' || c == '\r' || c == '\U{2028}' || c == '\U{2029}'
  }

  /** `\d`: the ASCII digits only. */
  predicate IsDigit(c: char) {
    '0' <= c <= '9'
  }

  /** Canonicalize of a non-unicode case-insensitive pattern, restricted to what
      can equal an ASCII pattern character: a non-ASCII character never folds
      onto an ASCII one, so only the ASCII letters fold. */
  function UpperAscii(c: char): (u: char)
    ensures 'a' <= c <= 'z' ==> u as int == c as int - 32
    ensures !('a' <= c <= 'z') ==> u == c
  {
    if 'a' <= c <= 'z' then (c as int - 32) as char else c
  }

  /** `lit` occurs at offset `i` of `text` under `/i` matching. */
  predicate StartsWithIgnoringCase(text: string, i: nat, lit: string) {
    && i + |lit| <= |text|
    && forall k :: 0 <= k < |lit| ==> UpperAscii(text[i + k]) == UpperAscii(lit[k])
  }

  predicate AllSpaces(s: string) {
    forall k :: 0 <= k < |s| ==> IsJsSpace(s[k])
  }

  predicate NoSpaces(s: string) {
    forall k :: 0 <= k < |s| ==> !IsJsSpace(s[k])
  }

  /** What `trim()` leaves: nothing strippable at either end. */
  predicate IsTrimmed(s: string) {
    s == [] || (!IsJsSpace(s[0]) && !IsJsSpace(s[|s| - 1]))
  }

  /** The end of the maximal run of characters satisfying `p` that starts at `i`:
      what a greedy `\s*` or `\d+` consumes before backtracking. */
  function RunEnd(s: string, i: nat, p: char -> bool): (r: nat)
    requires i <= |s|
    ensures i <= r <= |s|
    ensures forall k :: i <= k < r ==> p(s[k])
    ensures r < |s| ==> !p(s[r])
    decreases |s| - i
  {
    if i < |s| && p(s[i]) then RunEnd(s, i + 1, p) else i
  }

  function SpaceRunEnd(s: string, i: nat): (r: nat)
    requires i <= |s|
    ensures i <= r <= |s|
    ensures forall k :: i <= k < r ==> IsJsSpace(s[k])
    ensures r < |s| ==> !IsJsSpace(s[r])
  {
    RunEnd(s, i, IsJsSpace)
  }

  function DigitRunEnd(s: string, i: nat): (r: nat)
    requires i <= |s|
    ensures i <= r <= |s|
    ensures forall k :: i <= k < r ==> IsDigit(s[k])
    ensures r < |s| ==> !IsDigit(s[r])
  {
    RunEnd(s, i, IsDigit)
  }

  /** Index of the first line terminator at or after `i`, or `|s|`. */
  function LineEnd(s: string, i: nat): (r: nat)
    requires i <= |s|
    ensures i <= r <= |s|
    ensures forall k :: i <= k < r ==> !IsLineTerminator(s[k])
    ensures r < |s| ==> IsLineTerminator(s[r])
    decreases |s| - i
  {
    if i < |s| && !IsLineTerminator(s[i]) then LineEnd(s, i + 1) else i
  }

  /** Index of the first `\s` character at or after `i`, or `|s|`. */
  function SpaceFrom(s: string, i: nat): (r: nat)
    requires i <= |s|
    ensures i <= r <= |s|
    ensures forall k :: i <= k < r ==> !IsJsSpace(s[k])
    ensures r < |s| ==> IsJsSpace(s[r])
    decreases |s| - i
  {
    if i < |s| && !IsJsSpace(s[i]) then SpaceFrom(s, i + 1) else i
  }

  // ---------------------------------------------------------------------------
  // trim()

  /** Drops the leading `\s` characters. */
  function TrimStart(s: string): (r: string)
    ensures |r| <= |s| && r == s[|s| - |r|..]
    ensures AllSpaces(s[..|s| - |r|])
    ensures r == [] || !IsJsSpace(r[0])
  {
    s[SpaceRunEnd(s, 0)..]
  }

  /** Drops the trailing `\s` characters. */
  function TrimEnd(s: string): (r: string)
    ensures |r| <= |s| && r == s[..|r|]
    ensures AllSpaces(s[|r|..])
    ensures r == [] || !IsJsSpace(r[|r| - 1])
    decreases |s|
  {
    if s != [] && IsJsSpace(s[|s| - 1]) then
      var r := TrimEnd(s[..|s| - 1]);
      assert s[|r|..] == s[..|s| - 1][|r|..] + [s[|s| - 1]];
      r
    else s
  }

  /** `String.prototype.trim`: `s` is spaces, then `r`, then spaces, and `r`
      has no space at either end. */
  function Trim(s: string): (r: string)
    ensures IsTrimmed(r)
    ensures exists a :: Padding(s, a, r)
  {
    var t := TrimStart(s);
    var r := TrimEnd(t);
    assert Padding(s, |s| - |t|, r) by {
      assert s[|s| - |t|..][..|r|] == s[|s| - |t|..|s| - |t| + |r|];
      assert s[|s| - |t|..][|r|..] == s[|s| - |t| + |r|..];
    }
    r
  }

  /** `s` is `r` with the `\s` characters `s[..a]` before it and `s[a + |r|..]` after it. */
  predicate Padding(s: string, a: nat, r: string) {
    && a + |r| <= |s|
    && s[a..a + |r|] == r
    && AllSpaces(s[..a])
    && AllSpaces(s[a + |r|..])
  }

  /** Trimming is the identity on trimmed text, so it is idempotent. */
  lemma TrimOfTrimmed(s: string)
    requires IsTrimmed(s)
    ensures Trim(s) == s
  {
    assert SpaceRunEnd(s, 0) == 0;
    assert TrimStart(s) == s;
  }

  lemma TrimIdempotent(s: string)
    ensures Trim(Trim(s)) == Trim(s)
  {
    TrimOfTrimmed(Trim(s));
  }

  /** A character of the trimmed text is a character of the input. */
  lemma TrimChars(s: string, k: nat)
    requires k < |Trim(s)|
    ensures Trim(s)[k] in s
  {
    var r := Trim(s);
    var a: nat :| Padding(s, a, r);
    assert s[a + k] == r[k];
  }

  // ---------------------------------------------------------------------------
  // split(/\s+/) and join(' ')

  /** `s.split(/\s+/)`: the pieces between maximal runs of `\s`. A leading or
      trailing run yields an empty first or last piece, and `"".split(/\s+/)`
      is `[""]`. */
  function SplitSpaces(s: string): (r: seq<string>)
    ensures |r| >= 1
    ensures forall i :: 0 <= i < |r| ==> NoSpaces(r[i])
    ensures |r| == 1 <==> NoSpaces(s)
    decreases |s|
  {
    var k := SpaceFrom(s, 0);
    if k == |s| then [s] else [s[..k]] + SplitSpaces(s[SpaceRunEnd(s, k)..])
  }

  /** The number of words `split(/\s+/).length` reports. */
  function WordCount(s: string): nat {
    |SplitSpaces(s)|
  }

  /** A single-space join of words counts as exactly that many words. */
  lemma WordCountOfJoin(words: seq<string>)
    requires |words| >= 1
    requires forall i :: 0 <= i < |words| ==> IsWord(words[i])
    ensures WordCount(Join(words, " ")) == |words|
  {
    SplitJoin(words);
  }

  predicate IsWord(w: string) {
    w != [] && NoSpaces(w)
  }

  /** `words.join(sep)` for a non-empty list. */
  function Join(words: seq<string>, sep: string): string
    requires |words| >= 1
  {
    if |words| == 1 then words[0] else words[0] + sep + Join(words[1..], sep)
  }

  /** Each piece of the split of trimmed, non-empty text is a word. */
  lemma {:induction false} SplitTrimmedIsWords(s: string)
    requires s != [] && IsTrimmed(s)
    ensures forall i :: 0 <= i < |SplitSpaces(s)| ==> IsWord(SplitSpaces(s)[i])
    decreases |s|
  {
    var k := SpaceFrom(s, 0);
    if k < |s| {
      var m := SpaceRunEnd(s, k);
      var rest := s[m..];
      assert m < |s|;
      assert rest[|rest| - 1] == s[|s| - 1];
      SplitTrimmedIsWords(rest);
      assert IsWord(s[..k]) by { assert k > 0; }
    }
  }

  lemma {:induction false} JoinStartsWithFirst(words: seq<string>, sep: string)
    requires |words| >= 1
    ensures |Join(words, sep)| >= |words[0]|
    ensures Join(words, sep)[..|words[0]|] == words[0]
  {
  }

  /** Splitting a single-space join of words gives the words back. */
  lemma {:induction false} SplitJoin(words: seq<string>)
    requires |words| >= 1
    requires forall i :: 0 <= i < |words| ==> IsWord(words[i])
    ensures SplitSpaces(Join(words, " ")) == words
    decreases |words|
  {
    var s := Join(words, " ");
    if |words| == 1 {
      assert SpaceFrom(s, 0) == |s|;
    } else {
      var rest := Join(words[1..], " ");
      assert s == words[0] + " " + rest;
      assert rest != [] && rest[0] == words[1][0] by {
        JoinStartsWithFirst(words[1..], " ");
      }
      SplitAfterWord(words[0], rest);
      SplitJoin(words[1..]);
    }
  }

  /** A word, one space and text that starts with a non-space split into that
      word followed by the split of the text. */
  lemma SplitAfterWord(w: string, rest: string)
    requires IsWord(w) && rest != [] && !IsJsSpace(rest[0])
    ensures SplitSpaces(w + " " + rest) == [w] + SplitSpaces(rest)
  {
    var s := w + " " + rest;
    assert SpaceFrom(s, 0) == |w| by {
      assert forall k :: 0 <= k < |w| ==> s[k] == w[k];
      SpaceFromAt(s, 0, |w|);
    }
    assert SpaceRunEnd(s, |w|) == |w| + 1 by {
      assert s[|w| + 1] == rest[0];
      RunEndAt(s, |w|, |w| + 1, IsJsSpace);
    }
    assert s[..|w|] == w;
    assert s[|w| + 1..] == rest;
  }

  lemma {:induction false} SpaceFromAt(s: string, i: nat, j: nat)
    requires i <= j <= |s|
    requires forall k :: i <= k < j ==> !IsJsSpace(s[k])
    requires j < |s| ==> IsJsSpace(s[j])
    ensures SpaceFrom(s, i) == j
    decreases j - i
  {
    if i < j {
      SpaceFromAt(s, i + 1, j);
    }
  }

  /** With no line terminator from `i` on, the line runs to the end of `s`. */
  lemma {:induction false} LineEndOfLastLine(s: string, i: nat)
    requires i <= |s|
    requires forall k :: i <= k < |s| ==> !IsLineTerminator(s[k])
    ensures LineEnd(s, i) == |s|
    decreases |s| - i
  {
    if i < |s| {
      LineEndOfLastLine(s, i + 1);
    }
  }

  /** A run's end is the first offset past `i` whose character fails `p`. */
  lemma {:induction false} RunEndAt(s: string, i: nat, j: nat, p: char -> bool)
    requires i <= j <= |s|
    requires forall k :: i <= k < j ==> p(s[k])
    requires j < |s| ==> !p(s[j])
    ensures RunEnd(s, i, p) == j
    decreases j - i
  {
    if i < j {
      RunEndAt(s, i + 1, j, p);
    }
  }

  /** Scanning a run inside the slice `s[lo..hi]` stops where the scan of `s`
      stops, or at the end of the slice, whichever comes first. */
  lemma RunEndInSlice(s: string, lo: nat, hi: nat, j: nat, p: char -> bool)
    requires lo <= j <= hi <= |s|
    ensures RunEnd(s[lo..hi], j - lo, p) == (if RunEnd(s, j, p) < hi then RunEnd(s, j, p) else hi) - lo
  {
    var r := RunEnd(s, j, p);
    var t := if r < hi then r else hi;
    var m := s[lo..hi];
    assert forall k :: j - lo <= k < t - lo ==> m[k] == s[lo + k];
    RunEndAt(m, j - lo, t - lo, p);
  }

  lemma SpaceRunEndInSlice(s: string, lo: nat, hi: nat, j: nat)
    requires lo <= j <= hi <= |s| && SpaceRunEnd(s, j) < hi
    ensures SpaceRunEnd(s[lo..hi], j - lo) == SpaceRunEnd(s, j) - lo
  {
    RunEndInSlice(s, lo, hi, j, IsJsSpace);
  }

  /** A space run that reaches `k` in `s` reaches it in a slice containing `k`. */
  lemma SpaceRunEndInSliceAtLeast(s: string, lo: nat, hi: nat, j: nat, k: nat)
    requires lo <= j <= k < hi <= |s| && k <= SpaceRunEnd(s, j)
    ensures k - lo <= SpaceRunEnd(s[lo..hi], j - lo)
  {
    RunEndInSlice(s, lo, hi, j, IsJsSpace);
  }

  lemma DigitRunEndInSlice(s: string, lo: nat, hi: nat, j: nat)
    requires lo <= j <= hi <= |s| && DigitRunEnd(s, j) < hi
    ensures DigitRunEnd(s[lo..hi], j - lo) == DigitRunEnd(s, j) - lo
  {
    RunEndInSlice(s, lo, hi, j, IsDigit);
  }

  /** A literal found at `i` is found at the start of any slice that begins at `i` and contains it. */
  lemma StartsWithInSlice(text: string, i: nat, hi: nat, lit: string)
    requires StartsWithIgnoringCase(text, i, lit) && i + |lit| <= hi <= |text|
    ensures StartsWithIgnoringCase(text[i..hi], 0, lit)
  {
    assert forall k :: 0 <= k < |lit| ==> text[i..hi][k] == text[i + k];
  }

  /** Appending to a join appends to its last word. */
  lemma {:induction false} JoinAppend(words: seq<string>, tail: string)
    requires |words| >= 1
    ensures Join(words, " ") + tail == Join(words[..|words| - 1] + [words[|words| - 1] + tail], " ")
    decreases |words|
  {
    if |words| > 1 {
      JoinAppend(words[1..], tail);
      assert words[1..][..|words| - 2] == words[1..|words| - 1];
      var ws' := words[..|words| - 1] + [words[|words| - 1] + tail];
      assert ws'[1..] == words[1..][..|words| - 2] + [words[|words| - 1] + tail];
    }
  }

  // ---------------------------------------------------------------------------
  // String(n) and parseInt

  function DigitChar(d: nat): (c: char)
    requires d < 10
    ensures IsDigit(c) && c as int - '0' as int == d
  {
    ('0' as int + d) as char
  }

  function DigitValue(c: char): (d: nat)
    requires IsDigit(c)
    ensures d < 10 && DigitChar(d) == c
  {
    c as int - '0' as int
  }

  /** The decimal rendering of `n`, as in a template literal `${n}`. */
  function NatToString(n: nat): (r: string)
    ensures |r| >= 1
    ensures forall k :: 0 <= k < |r| ==> IsDigit(r[k])
    ensures r[0] == '0' ==> n == 0
    decreases n
  {
    if n < 10 then [DigitChar(n)] else NatToString(n / 10) + [DigitChar(n % 10)]
  }

  predicate AllDigits(s: string) {
    forall k :: 0 <= k < |s| ==> IsDigit(s[k])
  }

  /** A stretch of digits cut out of `s` is all digits. */
  lemma DigitsInSlice(s: string, x: nat, y: nat)
    requires x <= y <= |s|
    requires forall k :: x <= k < y ==> IsDigit(s[k])
    ensures AllDigits(s[x..y])
  {
  }

  /** `parseInt` applied to a run of decimal digits. */
  function DigitsValue(s: string): nat
    requires AllDigits(s)
    decreases |s|
  {
    if s == [] then 0 else DigitsValue(s[..|s| - 1]) * 10 + DigitValue(s[|s| - 1])
  }

  /** A single digit reads as its own value. */
  lemma SingleDigitValue(s: string)
    requires |s| == 1 && IsDigit(s[0])
    ensures DigitsValue(s) == DigitValue(s[0])
  {
    assert s[..0] == [];
  }

  /** `parseInt(String(n)) == n`. */
  lemma {:induction false} DigitsOfNatToString(n: nat)
    ensures DigitsValue(NatToString(n)) == n
    decreases n
  {
    var s := NatToString(n);
    if n >= 10 {
      DigitsOfNatToString(n / 10);
      assert s[..|s| - 1] == NatToString(n / 10);
    }
  }
}

=== FILE: label_pattern.dfy ===
/** The labelled-field regular expressions of the AI service, each written out
    as the backtracking search an ECMAScript engine performs:

      /<label>\s*(.+?)(?:\n|<next>|$)/i

    `String.prototype.match` without the `g` flag tries start offsets left to
    right; at an offset where the label matches, greedy `\s*` first takes the
    whole run of spaces and gives it back one character at a time; for each
    choice the lazy `(.+?)` grows one `.` at a time until the terminator
    matches. `$` has no `m` flag, so it matches at the end of input only. */
module LabelPattern {
  import opened Optional
  import opened JsText
  import opened Search

  /** What may end a lazy capture, besides a `\n` and the end of input. */
  datatype Stop =
    | LineOnly                 // `(?:\n|$)`
    | NextLabel(next: string)  // `(?:\n|<label>|$)`
    | PositionHeader           // `(?:\n|Position \d+:|$)`

  /** `Position \d+:` (case-insensitive) at offset `i`: the offset just past the
      colon. Greedy `\d+` can only be followed by `:` at the end of its run, so
      no backtracking into the digits ever helps. */
  function PositionHeaderAt(text: string, i: nat): (r: Option<nat>)
    ensures r.Some? ==> i + 11 <= r.value <= |text| && StartsWithIgnoringCase(text, i, "Position ")
    ensures r.Some? ==> text[r.value - 1] == ':' && forall k :: i + 9 <= k < r.value - 1 ==> IsDigit(text[k])
  {
    if StartsWithIgnoringCase(text, i, "Position ") then
      var d := DigitRunEnd(text, i + 9);
      if d > i + 9 && d < |text| && text[d] == ':' then Some(d + 1) else None
    else None
  }

  /** The converse: `Position ` (in any case), one or more digits and a colon
      at `i` are a header ending just past that colon. */
  lemma PositionHeaderAtIs(text: string, i: nat, d: nat)
    requires StartsWithIgnoringCase(text, i, "Position ")
    requires i + 9 < d < |text| && text[d] == ':'
    requires forall k :: i + 9 <= k < d ==> IsDigit(text[k])
    ensures PositionHeaderAt(text, i) == Some(d + 1)
  {
    RunEndAt(text, i + 9, d, IsDigit);
  }

  /** A header found at `i` is found at the start of any slice that begins at
      `i` and contains it. */
  lemma PositionHeaderInSlice(text: string, i: nat, hi: nat)
    requires PositionHeaderAt(text, i).Some? && PositionHeaderAt(text, i).value <= hi <= |text|
    ensures PositionHeaderAt(text[i..hi], 0) == Some(PositionHeaderAt(text, i).value - i)
  {
    var m := text[i..hi];
    var d := DigitRunEnd(text, i + 9);
    StartsWithInSlice(text, i, hi, "Position ");
    RunEndInSlice(text, i, hi, i + 9, IsDigit);
    assert DigitRunEnd(m, 9) == d - i;
    assert m[d - i] == text[d];
  }

  /** The terminator group matches at `e`. */
  predicate StopsAt(text: string, e: nat, stop: Stop)
    requires e <= |text|
  {
    || e == |text|
    || text[e] == '\n'
    || match stop
       case LineOnly => false
       case NextLabel(l) => StartsWithIgnoringCase(text, e, l)
       case PositionHeader => PositionHeaderAt(text, e).Some?
  }

  /** Every character of `text[s..e]` is matched by `.`. */
  predicate Dots(text: string, s: nat, e: nat)
    requires s <= e <= |text|
  {
    forall k :: s <= k < e ==> !IsLineTerminator(text[k])
  }

  /** `e` ends a candidate capture started at `s`: at least one `.`, then the terminator. */
  predicate LazyEnd(text: string, s: nat, e: nat, stop: Stop) {
    s < e <= |text| && Dots(text, s, e) && StopsAt(text, e, stop)
  }

  /** The lazy loop, having consumed `text[s..e]`: test the terminator, else take one more `.`. */
  function LazyEndFrom(text: string, s: nat, e: nat, stop: Stop): (r: Option<nat>)
    requires s < e <= |text| && Dots(text, s, e)
    requires forall e' :: s < e' < e ==> !StopsAt(text, e', stop)
    ensures r.Some? ==> LazyEnd(text, s, r.value, stop)
    ensures r.Some? ==> forall e' :: s < e' < r.value ==> !StopsAt(text, e', stop)
    ensures r.None? ==> forall e' :: s < e' <= |text| && Dots(text, s, e') ==> !StopsAt(text, e', stop)
    decreases |text| - e
  {
    if StopsAt(text, e, stop) then Some(e)
    else if e < |text| && !IsLineTerminator(text[e]) then LazyEndFrom(text, s, e + 1, stop)
    else None
  }

  /** `(.+?)(?:\n|<stop>|$)` tried at `s`: the least end of a capture of one or
      more `.` characters at which the terminator matches, if any. */
  function LazyCapture(text: string, s: nat, stop: Stop): (r: Option<nat>)
    requires s <= |text|
    ensures r.Some? ==> LazyEnd(text, s, r.value, stop)
    ensures r.Some? ==> forall e' :: s < e' < r.value ==> !StopsAt(text, e', stop)
    ensures r.None? ==> forall e' :: s < e' <= |text| && Dots(text, s, e') ==> !StopsAt(text, e', stop)
  {
    if s < |text| && !IsLineTerminator(text[s]) then LazyEndFrom(text, s, s + 1, stop) else None
  }

  /** Greedy `\s*` giving back characters: try the capture at `s`, then at
      `s - 1`, ..., down to `p`, where the run of spaces began. */
  function Backtrack(text: string, p: nat, s: nat, stop: Stop): (r: Option<(nat, nat)>)
    requires p <= s <= |text|
    ensures r.Some? ==> p <= r.value.0 <= s && LazyCapture(text, r.value.0, stop) == Some(r.value.1)
    ensures r.Some? ==> forall s' :: r.value.0 < s' <= s ==> LazyCapture(text, s', stop).None?
    ensures r.None? <==> forall s' :: p <= s' <= s ==> LazyCapture(text, s', stop).None?
    decreases s - p
  {
    match LazyCapture(text, s, stop)
    case Some(e) => Some((s, e))
    case None => if s == p then None else Backtrack(text, p, s - 1, stop)
  }

  /** The whole pattern tried at offset `i`: the bounds of the capture group. */
  function FieldAt(text: string, i: nat, lbl: string, stop: Stop): Option<(nat, nat)> {
    if StartsWithIgnoringCase(text, i, lbl) then
      var p := i + |lbl|;
      Backtrack(text, p, SpaceRunEnd(text, p), stop)
    else None
  }

  /** The leftmost offset at or after `i` where the pattern matches, with the bounds of its group. */
  function FirstField(text: string, i: nat, lbl: string, stop: Stop): Option<(nat, (nat, nat))> {
    Leftmost((j: nat) => FieldAt(text, j, lbl, stop), i, |text|)
  }

  lemma FirstFieldIsLeftmost(text: string, i: nat, lbl: string, stop: Stop)
    ensures var r := FirstField(text, i, lbl, stop);
      && (r.None? <==> forall j :: i <= j <= |text| ==> FieldAt(text, j, lbl, stop).None?)
      && (r.Some? ==> i <= r.value.0 <= |text| && FieldAt(text, r.value.0, lbl, stop) == Some(r.value.1))
      && (r.Some? ==> forall j :: i <= j < r.value.0 ==> FieldAt(text, j, lbl, stop).None?)
  {
    hide FieldAt;
    var f := (j: nat) => FieldAt(text, j, lbl, stop);
    assert forall j: nat :: f(j) == FieldAt(text, j, lbl, stop);
  }

  /** A labelled field read with a non-global match. The result is absent
      exactly when the pattern matches at no offset; otherwise it is the
      captured group of the leftmost match, with surrounding `\s` removed. */
  function Extract(text: string, lbl: string, stop: Stop): (r: Option<string>)
    ensures r.None? <==> forall i :: 0 <= i <= |text| ==> FieldAt(text, i, lbl, stop).None?
    ensures r.Some? ==> exists i :: LeftmostField(text, i, lbl, stop, r.value)
    ensures r.Some? ==> IsTrimmed(r.value)
  {
    FirstFieldIsLeftmost(text, 0, lbl, stop);
    match FirstField(text, 0, lbl, stop)
    case None => None
    case Some((i, (s, e))) =>
      FieldAtShape(text, i, lbl, stop);
      assert LeftmostField(text, i, lbl, stop, Trim(text[s..e]));
      Some(Trim(text[s..e]))
  }

  /** The pattern matches at `i` and at no earlier offset, and `v` is its trimmed group. */
  predicate LeftmostField(text: string, i: nat, lbl: string, stop: Stop, v: string) {
    && i <= |text|
    && FieldAt(text, i, lbl, stop).Some?
    && (forall j :: 0 <= j < i ==> FieldAt(text, j, lbl, stop).None?)
    && var (s, e) := FieldAt(text, i, lbl, stop).value;
       s <= e <= |text| && v == Trim(text[s..e])
  }

  // ---------------------------------------------------------------------------
  // What a match looks like

  /** A match of the pattern at `i` whose group is `text[s..e]`, trimmed to `v`:
      the label, then only spaces up to `s`, then one or more `.` up to the first
      offset `e` where the terminator matches. */
  predicate FieldShape(text: string, lbl: string, stop: Stop, i: nat, s: nat, e: nat, v: string) {
    && StartsWithIgnoringCase(text, i, lbl)
    && i + |lbl| <= s <= |text|
    && AllSpaces(text[i + |lbl|..s])
    && LazyEnd(text, s, e, stop)
    && (forall e' :: s < e' < e ==> !StopsAt(text, e', stop))
    && v == Trim(text[s..e])
  }

  /** A match found at `i` has that shape. */
  lemma FieldAtShape(text: string, i: nat, lbl: string, stop: Stop)
    requires FieldAt(text, i, lbl, stop).Some?
    ensures var (s, e) := FieldAt(text, i, lbl, stop).value;
      s <= e <= |text| && FieldShape(text, lbl, stop, i, s, e, Trim(text[s..e]))
  {
    hide StopsAt, StartsWithIgnoringCase, Trim, Dots, LazyCapture;
    var p := i + |lbl|;
    var (s, e) := FieldAt(text, i, lbl, stop).value;
    assert AllSpaces(text[p..s]) by {
      assert forall k :: p <= k < s ==> IsJsSpace(text[k]);
    }
  }

  /** Whatever `Extract` returns is the trimmed group of a match of that shape. */
  lemma ExtractedFieldShape(text: string, lbl: string, stop: Stop)
    ensures Extract(text, lbl, stop).Some? ==>
      exists i, s, e :: FieldShape(text, lbl, stop, i, s, e, Extract(text, lbl, stop).value)
  {
    hide Extract, FirstField, FieldShape, StopsAt, LazyCapture, Backtrack;
    if Extract(text, lbl, stop).None? {
      return;
    }
    var v := Extract(text, lbl, stop).value;
    var i: nat :| LeftmostField(text, i, lbl, stop, v);
    FieldAtShape(text, i, lbl, stop);
    var (s, e) := FieldAt(text, i, lbl, stop).value;
    assert FieldShape(text, lbl, stop, i, s, e, v);
  }

  /** The extracted value never spans a line: it holds no line terminator. */
  lemma ExtractedIsOneLine(text: string, lbl: string, stop: Stop)
    ensures Extract(text, lbl, stop).Some? ==>
      forall k :: 0 <= k < |Extract(text, lbl, stop).value| ==> !IsLineTerminator(Extract(text, lbl, stop).value[k])
  {
    hide Extract, FirstField, FieldAt, LeftmostField, StopsAt;
    if Extract(text, lbl, stop).None? {
      return;
    }
    var v := Extract(text, lbl, stop).value;
    ExtractedFieldShape(text, lbl, stop);
    var i: nat, s: nat, e: nat :| FieldShape(text, lbl, stop, i, s, e, v);
    forall k | 0 <= k < |v|
      ensures !IsLineTerminator(v[k])
    {
      TrimChars(text[s..e], k);
    }
  }

  /** The lazy loop resumed at `e0` ends at `e`, the first terminator offset. */
  lemma {:induction false} LazyEndFromIs(text: string, s: nat, e0: nat, e: nat, stop: Stop)
    requires s < e0 <= e
    requires LazyEnd(text, s, e, stop)
    requires forall e' :: s < e' < e ==> !StopsAt(text, e', stop)
    ensures LazyEndFrom(text, s, e0, stop) == Some(e)
    decreases e - e0
  {
    if e0 < e {
      LazyEndFromIs(text, s, e0 + 1, e, stop);
    }
  }

  /** The capture at `s` is the least terminator offset past `s` reached through `.` characters. */
  lemma LazyCaptureIs(text: string, s: nat, e: nat, stop: Stop)
    requires LazyEnd(text, s, e, stop)
    requires forall e' :: s < e' < e ==> !StopsAt(text, e', stop)
    ensures LazyCapture(text, s, stop) == Some(e)
  {
    LazyEndFromIs(text, s, s + 1, e, stop);
  }

  /** A well-formed field: the label at `i` (and nowhere earlier), spaces, then a
      run of `.` from the first non-space character `q` to the first offset `e`
      where the terminator matches. `Extract` returns exactly that run, trimmed. */
  lemma ExtractOfCleanField(text: string, lbl: string, stop: Stop, i: nat, e: nat)
    requires StartsWithIgnoringCase(text, i, lbl)
    requires forall j :: 0 <= j < i ==> !StartsWithIgnoringCase(text, j, lbl)
    requires SpaceRunEnd(text, i + |lbl|) < e
    requires LazyEnd(text, SpaceRunEnd(text, i + |lbl|), e, stop)
    requires forall e' :: SpaceRunEnd(text, i + |lbl|) < e' < e ==> !StopsAt(text, e', stop)
    ensures Extract(text, lbl, stop) == Some(Trim(text[SpaceRunEnd(text, i + |lbl|)..e]))
  {
    var q := SpaceRunEnd(text, i + |lbl|);
    LazyCaptureIs(text, q, e, stop);
    assert FieldAt(text, i, lbl, stop) == Some((q, e));
    var f := (j: nat) => FieldAt(text, j, lbl, stop);
    forall k | 0 <= k < i
      ensures f(k).None?
    {
      assert !StartsWithIgnoringCase(text, k, lbl);
    }
    LeftmostSkips(f, 0, i, |text|);
    assert FirstField(text, 0, lbl, stop) == Some((i, (q, e)));
  }

  /** The lazy loop cannot get past a line terminator other than `\n` that comes
      before every terminator offset. */
  lemma {:induction false} LazyEndFromBlocked(text: string, s: nat, e: nat, r: nat, stop: Stop)
    requires s < e <= r < |text|
    requires IsLineTerminator(text[r])
    requires forall k :: s < k <= r ==> !StopsAt(text, k, stop)
    requires Dots(text, s, r)
    ensures LazyEndFrom(text, s, e, stop).None?
    decreases r - e
  {
    if e < r {
      LazyEndFromBlocked(text, s, e + 1, r, stop);
    }
  }

  /** A line terminator other than `\n` (a `\r` of a CRLF line ending, say)
      reached before any terminator defeats the occurrence at `i`: `.` cannot
      cross it and `\n|<next>|$` cannot match on it, whichever share of the
      spaces `\s*` gives back. The search then moves on to later offsets. */
  lemma BareLineTerminatorDefeats(text: string, lbl: string, stop: Stop, i: nat, r: nat)
    requires StartsWithIgnoringCase(text, i, lbl)
    requires SpaceRunEnd(text, i + |lbl|) < r < |text|
    requires IsLineTerminator(text[r]) && text[r] != '\n'
    requires Dots(text, i + |lbl|, r)
    requires forall k :: i + |lbl| < k <= r ==> !StopsAt(text, k, stop)
    ensures FieldAt(text, i, lbl, stop).None?
  {
    var p := i + |lbl|;
    var q := SpaceRunEnd(text, p);
    forall s' | p <= s' <= q
      ensures LazyCapture(text, s', stop).None?
    {
      LazyEndFromBlocked(text, s', s' + 1, r, stop);
    }
  }

  // ---------------------------------------------------------------------------
  // The labels of the AI service

  const EnhancedTitleLabel := "Enhanced Title:"
  const EnhancedDescriptionLabel := "Enhanced Description:"
  const FinalTitleLabel := "FINAL TITLE:"
  const FinalDescriptionLabel := "FINAL DESCRIPTION:"
  const ImageLayoutLabel := "IMAGE LAYOUT:"

  /** `extractEnhancedTitle`: the title runs to a newline, the description
      label or the end. */
  function ExtractEnhancedTitle(content: string): (r: Option<string>)
    ensures r.None? <==> forall i :: 0 <= i <= |content| ==>
      FieldAt(content, i, EnhancedTitleLabel, NextLabel(EnhancedDescriptionLabel)).None?
    ensures r.Some? ==> IsTrimmed(r.value)
    ensures r.Some? ==> exists i :: LeftmostField(content, i, EnhancedTitleLabel, NextLabel(EnhancedDescriptionLabel), r.value)
  {
    Extract(content, EnhancedTitleLabel, NextLabel(EnhancedDescriptionLabel))
  }

  /** `extractEnhancedDescription`: the description runs to a newline or the end. */
  function ExtractEnhancedDescription(content: string): (r: Option<string>)
    ensures r.None? <==> forall i :: 0 <= i <= |content| ==>
      FieldAt(content, i, EnhancedDescriptionLabel, LineOnly).None?
    ensures r.Some? ==> IsTrimmed(r.value)
    ensures r.Some? ==> exists i :: LeftmostField(content, i, EnhancedDescriptionLabel, LineOnly, r.value)
  {
    Extract(content, EnhancedDescriptionLabel, LineOnly)
  }

  /** The `FINAL TITLE:` field runs to a newline, the `FINAL DESCRIPTION:` label or the end. */
  function ExtractFinalTitle(content: string): (r: Option<string>)
    ensures r.None? <==> forall i :: 0 <= i <= |content| ==>
      FieldAt(content, i, FinalTitleLabel, NextLabel(FinalDescriptionLabel)).None?
    ensures r.Some? ==> IsTrimmed(r.value)
    ensures r.Some? ==> exists i :: LeftmostField(content, i, FinalTitleLabel, NextLabel(FinalDescriptionLabel), r.value)
  {
    Extract(content, FinalTitleLabel, NextLabel(FinalDescriptionLabel))
  }

  /** The `FINAL DESCRIPTION:` field runs to a newline, the `IMAGE LAYOUT:` label or the end. */
  function ExtractFinalDescription(content: string): (r: Option<string>)
    ensures r.None? <==> forall i :: 0 <= i <= |content| ==>
      FieldAt(content, i, FinalDescriptionLabel, NextLabel(ImageLayoutLabel)).None?
    ensures r.Some? ==> IsTrimmed(r.value)
    ensures r.Some? ==> exists i :: LeftmostField(content, i, FinalDescriptionLabel, NextLabel(ImageLayoutLabel), r.value)
  {
    Extract(content, FinalDescriptionLabel, NextLabel(ImageLayoutLabel))
  }
}

=== FILE: layout_parser.dfy ===
/** `parseFinalBrochureContent`: the final title, the final description and the
    image layout read out of the finalizing model's reply. The layout is read
    with a global regular expression,

      /Position \d+:\s*(\d+)\s*-\s*(.+?)(?:\n|Position \d+:|$)/gi

    whose whole matches are then matched again, one by one, with

      /Position (\d+):\s*(\d+)\s*-\s*(.+)/i

    and applied, in order, to the identity layout. */
module LayoutParser {
  import opened Optional
  import opened JsText
  import opened LabelPattern
  import opened Search
  import opened BrochureContent

  const TitleFallback := "Enhanced Title"
  const DescriptionFallback := "Enhanced Description"

  /** Length of what the terminator group `(?:\n|Position \d+:|$)` consumes at
      `e`; its alternatives are tried in that order. */
  function TerminatorLength(text: string, e: nat): (n: nat)
    requires e <= |text|
    ensures e + n <= |text|
    ensures n == 0 ==> e == |text| || (text[e] != '\n' && PositionHeaderAt(text, e).None?)
  {
    if e < |text| && text[e] == '\n' then 1
    else match PositionHeaderAt(text, e)
      case Some(h) => h - e
      case None => 0
  }

  /** The offset of the `-` that follows `Position \d+:\s*(\d+)\s*` at `i`, and
      the bounds of the image-number digits. Every `\s*` and `\d+` in that prefix
      is followed by something it cannot match, so only the greedy choice can
      succeed and the prefix matches in at most one way. */
  function PlacementPrefix(text: string, i: nat): (r: Option<(nat, nat, nat)>)
    ensures r.Some? ==> var (a, b, c) := r.value;
      && PositionHeaderAt(text, i).Some?
      && i + 11 <= PositionHeaderAt(text, i).value <= a < b <= c < |text|
      && text[c] == '-'
      && (forall k :: PositionHeaderAt(text, i).value <= k < a ==> IsJsSpace(text[k]))
      && (forall k :: a <= k < b ==> IsDigit(text[k]))
      && (forall k :: b <= k < c ==> IsJsSpace(text[k]))
  {
    match PositionHeaderAt(text, i)
    case None => None
    case Some(h) =>
      var a := SpaceRunEnd(text, h);
      var b := DigitRunEnd(text, a);
      if b == a then None
      else
        var c := SpaceRunEnd(text, b);
        if c == |text| || text[c] != '-' then None else Some((a, b, c))
  }

  /** The global pattern tried at `i`: the end of the whole match, terminator included. */
  function LayoutMatchAt(text: string, i: nat): (r: Option<nat>)
    ensures r.Some? ==> i < r.value <= |text|
  {
    match PlacementPrefix(text, i)
    case None => None
    case Some((_, _, c)) =>
      var p := c + 1;
      match Backtrack(text, p, SpaceRunEnd(text, p), PositionHeader)
      case None => None
      case Some((s, e)) =>
        assert LazyEnd(text, s, e, PositionHeader);
        Some(e + TerminatorLength(text, e))
  }

  /** The leftmost match starting at or after `from` (the regex's `lastIndex`):
      its start and the end of the whole match. */
  function NextLayoutMatch(text: string, from: nat): Option<(nat, nat)> {
    Leftmost(j => LayoutMatchAt(text, j), from, |text|)
  }

  /** `content.match(globalPattern)`: each search resumes where the previous
      whole match ended (matches are never empty). No match gives `null`, which
      the source treats like an empty list. */
  function LayoutMatches(text: string, from: nat): seq<string>
    decreases |text| - from
  {
    NextLayoutMatchBounds(text, from);
    match NextLayoutMatch(text, from)
    case None => []
    case Some((i, e)) => [text[i..e]] + LayoutMatches(text, e)
  }

  /** Every whole match is non-empty, so there are at most as many as there are
      characters left after `from`. */
  lemma {:induction false} LayoutMatchesPieces(text: string, from: nat)
    ensures var r := LayoutMatches(text, from);
      && (forall k :: 0 <= k < |r| ==> |r[k]| > 0)
      && (r != [] ==> from + |r| <= |text|)
    decreases |text| - from
  {
    hide NextLayoutMatch, LayoutMatchAt;
    NextLayoutMatchBounds(text, from);
    match NextLayoutMatch(text, from)
    case None =>
    case Some((i, e)) =>
      LayoutMatchesPieces(text, e);
      NonEmptyPieces(text[i..e], LayoutMatches(text, e));
  }

  /** The next match is the leftmost offset at or after `from` where the
      pattern matches, and there is none exactly when it matches nowhere there. */
  lemma NextLayoutMatchIs(text: string, from: nat)
    ensures var r := NextLayoutMatch(text, from);
      && (r.None? <==> forall j :: from <= j <= |text| ==> LayoutMatchAt(text, j).None?)
      && (r.Some? ==> from <= r.value.0 < r.value.1 <= |text| && LayoutMatchAt(text, r.value.0) == Some(r.value.1))
  {
    hide LayoutMatchAt;
    var f := (j: nat) => LayoutMatchAt(text, j);
    assert forall j: nat :: f(j) == LayoutMatchAt(text, j);
  }

  /** A next match lies at or after `from` and is non-empty. */
  lemma NextLayoutMatchBounds(text: string, from: nat)
    ensures var r := NextLayoutMatch(text, from);
      r.Some? ==> from <= r.value.0 < r.value.1 <= |text|
  {
    hide LayoutMatchAt;
    NextLayoutMatchIs(text, from);
  }

  lemma NonEmptyPieces(x: string, rest: seq<string>)
    requires |x| > 0 && forall k :: 0 <= k < |rest| ==> |rest[k]| > 0
    ensures forall k :: 0 <= k < |[x] + rest| ==> |([x] + rest)[k]| > 0
  {
  }

  /** `content.match(globalPattern)` is empty (or `null`) exactly when the
      pattern matches at no offset from `from` on. */
  lemma LayoutMatchesEmpty(text: string, from: nat)
    ensures LayoutMatches(text, from) == [] <==> forall j :: from <= j <= |text| ==> LayoutMatchAt(text, j).None?
  {
    hide LayoutMatchAt;
    NextLayoutMatchIs(text, from);
  }

  /** The global search resumes where the leftmost match ends: when the pattern
      first matches at or after `from` at offset `i`, that whole match comes
      first and the rest are the matches from its end on. */
  lemma LayoutMatchesStep(text: string, from: nat, i: nat, e: nat)
    requires from <= i <= |text|
    requires forall j :: from <= j < i ==> LayoutMatchAt(text, j).None?
    requires LayoutMatchAt(text, i) == Some(e)
    ensures LayoutMatches(text, from) == [text[i..e]] + LayoutMatches(text, e)
  {
    hide LayoutMatchAt;
    var f := (j: nat) => LayoutMatchAt(text, j);
    assert forall j :: from <= j < i ==> f(j).None?;
    LeftmostSkips(f, from, i, |text|);
    NextLayoutMatchAt(text, i);
  }

  /** A parsed `Position <p>: <n> - <reasoning>` line. */
  datatype Placement = Placement(position: nat, imageNumber: nat, reasoning: string)

  /** Greedy `(.+)` after greedy `\s*`: the latest start in `[p, s]` from which
      at least one `.` can be taken. */
  function GreedyStart(m: string, p: nat, s: nat): (r: Option<nat>)
    requires p <= s <= |m|
    ensures r.Some? ==> p <= r.value <= s && r.value < |m| && !IsLineTerminator(m[r.value])
    ensures r.None? ==> forall k :: p <= k <= s && k < |m| ==> IsLineTerminator(m[k])
    ensures r.Some? ==> forall k :: r.value < k <= s && k < |m| ==> IsLineTerminator(m[k])
    decreases s - p
  {
    if s < |m| && !IsLineTerminator(m[s]) then Some(s)
    else if s == p then None
    else GreedyStart(m, p, s - 1)
  }

  /** The re-match pattern tried at `i` of a whole-match string `m`. */
  function PlacementAt(m: string, i: nat): Option<Placement> {
    match PlacementPrefix(m, i)
    case None => None
    case Some((a, b, c)) =>
      var h := PositionHeaderAt(m, i).value;
      var p := c + 1;
      match GreedyStart(m, p, SpaceRunEnd(m, p))
      case None => None
      case Some(s) =>
        Some(Placement(DigitsValue(m[i + 9..h - 1]), DigitsValue(m[a..b]), Trim(m[s..LineEnd(m, s)])))
  }

  /** `m.match(rematchPattern)`: the groups of the leftmost match, if any. */
  function FirstPlacement(m: string): Option<Placement> {
    match Leftmost(j => PlacementAt(m, j), 0, |m|)
    case Some((_, pl)) => Some(pl)
    case None => None
  }

  /** The placements of the whole matches that match again, in order. */
  function Placements(matches: seq<string>): (r: seq<Placement>)
    ensures |r| <= |matches|
  {
    if matches == [] then []
    else match FirstPlacement(matches[0])
      case Some(pl) => [pl] + Placements(matches[1..])
      case None => Placements(matches[1..])
  }

  /** When every whole match matches again, nothing is dropped: the k-th
      placement is the re-match of the k-th whole match. */
  lemma {:induction false} PlacementsOfRematching(matches: seq<string>)
    requires forall j :: 0 <= j < |matches| ==> FirstPlacement(matches[j]).Some?
    ensures |Placements(matches)| == |matches|
    ensures forall k :: 0 <= k < |matches| ==> FirstPlacement(matches[k]) == Some(Placements(matches)[k])
  {
    hide FirstPlacement;
    if matches != [] {
      var rest := matches[1..];
      assert forall j :: 0 <= j < |rest| ==> FirstPlacement(rest[j]).Some? by {
        forall j | 0 <= j < |rest| ensures FirstPlacement(rest[j]).Some? {
          assert rest[j] == matches[j + 1];
        }
      }
      PlacementsOfRematching(rest);
      var pl := FirstPlacement(matches[0]).value;
      assert Placements(matches) == [pl] + Placements(rest);
      forall k | 0 <= k < |matches| ensures FirstPlacement(matches[k]) == Some(Placements(matches)[k]) {
        if k > 0 {
          assert matches[k] == rest[k - 1];
        }
      }
    }
  }

  /** The prefix at `i` from the offsets its scans stop at. */
  lemma PlacementPrefixIs(text: string, i: nat, h: nat, a: nat, b: nat, c: nat)
    requires PositionHeaderAt(text, i) == Some(h)
    requires SpaceRunEnd(text, h) == a && DigitRunEnd(text, a) == b && a < b
    requires SpaceRunEnd(text, b) == c && c < |text| && text[c] == '-'
    ensures PlacementPrefix(text, i) == Some((a, b, c))
  {
  }

  /** The prefix matches in at most one way: any header, spaces, digits, spaces
      and dash at `i` are the ones `PlacementPrefix` finds. */
  lemma PlacementPrefixUnique(text: string, i: nat, a: nat, b: nat, c: nat)
    requires PositionHeaderAt(text, i).Some?
    requires PositionHeaderAt(text, i).value <= a < b <= c < |text| && text[c] == '-'
    requires forall k :: PositionHeaderAt(text, i).value <= k < a ==> IsJsSpace(text[k])
    requires forall k :: a <= k < b ==> IsDigit(text[k])
    requires forall k :: b <= k < c ==> IsJsSpace(text[k])
    ensures PlacementPrefix(text, i) == Some((a, b, c))
  {
    var h := PositionHeaderAt(text, i).value;
    RunEndAt(text, h, a, IsJsSpace);
    RunEndAt(text, a, b, IsDigit);
    RunEndAt(text, b, c, IsJsSpace);
    PlacementPrefixIs(text, i, h, a, b, c);
  }

  /** Greedy `(.+)` finds a start when some candidate start holds a `.` character. */
  lemma GreedyStartFinds(m: string, p: nat, s: nat, k: nat)
    requires p <= k <= s <= |m| && k < |m| && !IsLineTerminator(m[k])
    ensures GreedyStart(m, p, s).Some?
  {
  }

  lemma SliceOfSlice(text: string, i: nat, end: nat, x: nat, y: nat)
    requires i <= x <= y <= end <= |text|
    ensures text[i..end][x - i..y - i] == text[x..y]
  {
    var t := text[i..end][x - i..y - i];
    assert forall k :: 0 <= k < |t| ==> t[k] == text[x + k];
  }

  /** The offsets of a prefix found at `i` are where its scans stop. */
  lemma PlacementPrefixParts(text: string, i: nat)
    requires PlacementPrefix(text, i).Some?
    ensures var (a, b, c) := PlacementPrefix(text, i).value;
      && a == SpaceRunEnd(text, PositionHeaderAt(text, i).value)
      && b == DigitRunEnd(text, a) && c == SpaceRunEnd(text, b)
  {
  }

  /** The prefix found at `i` is found, at the same offsets, at the start of
      any slice that begins at `i` and extends past its dash. */
  lemma PrefixInSlice(text: string, i: nat, end: nat)
    requires PlacementPrefix(text, i).Some? && PlacementPrefix(text, i).value.2 < end <= |text|
    ensures var (a, b, c) := PlacementPrefix(text, i).value;
      a >= i && PlacementPrefix(text[i..end], 0) == Some((a - i, b - i, c - i))
  {
    hide PlacementPrefix, PositionHeaderAt, StartsWithIgnoringCase, SpaceRunEnd, DigitRunEnd;
    var (a, b, c) := PlacementPrefix(text, i).value;
    PlacementPrefixParts(text, i);
    PrefixOffsetsInSlice(text, i, end, PositionHeaderAt(text, i).value, a, b, c);
  }

  lemma PrefixOffsetsInSlice(text: string, i: nat, end: nat, h: nat, a: nat, b: nat, c: nat)
    requires PositionHeaderAt(text, i) == Some(h)
    requires SpaceRunEnd(text, h) == a && DigitRunEnd(text, a) == b && a < b
    requires SpaceRunEnd(text, b) == c && c < end <= |text| && text[c] == '-'
    ensures PlacementPrefix(text[i..end], 0) == Some((a - i, b - i, c - i))
  {
    hide PlacementPrefix, PositionHeaderAt, StartsWithIgnoringCase, SpaceRunEnd, DigitRunEnd;
    var m := text[i..end];
    assert PositionHeaderAt(m, 0) == Some(h - i) by {
      PositionHeaderInSlice(text, i, end);
    }
    assert SpaceRunEnd(m, h - i) == a - i by {
      SpaceRunEndInSlice(text, i, end, h);
    }
    assert DigitRunEnd(m, a - i) == b - i by {
      DigitRunEndInSlice(text, i, end, a);
    }
    assert SpaceRunEnd(m, b - i) == c - i by {
      SpaceRunEndInSlice(text, i, end, b);
    }
    assert c - i < |m| && m[c - i] == '-';
    PlacementPrefixIs(m, 0, h - i, a - i, b - i, c - i);
  }

  /** A whole match of the global pattern, `text[i..end]`, matches the
      re-match pattern at its start, and both read the same image number: the
      re-match repeats the global pattern's prefix, and its greedy `(.+)` finds
      at least the character `s` where the lazy capture began. */
  lemma RematchFromParts(text: string, i: nat, end: nat, a: nat, b: nat, c: nat, s: nat)
    requires i <= a < b <= c < s < end <= |text|
    requires PlacementPrefix(text[i..end], 0) == Some((a - i, b - i, c - i))
    requires s <= SpaceRunEnd(text, c + 1) && !IsLineTerminator(text[s])
    requires forall k :: a <= k < b ==> IsDigit(text[k])
    ensures var n := DigitsValue(text[a..b]);
      var pl := PlacementAt(text[i..end], 0);
      pl.Some? && pl.value.imageNumber == n
  {
    hide PlacementPrefix, PlacementAt, GreedyStart, DigitsValue, SpaceRunEnd, PositionHeaderAt,
      StartsWithIgnoringCase, Trim, LineEnd, DigitRunEnd;
    var m := text[i..end];
    assert s - i <= SpaceRunEnd(m, c - i + 1) by {
      SpaceRunEndInSliceAtLeast(text, i, end, c + 1, s);
    }
    assert m[s - i] == text[s];
    assert GreedyStart(m, c - i + 1, SpaceRunEnd(m, c - i + 1)).Some? by {
      GreedyStartFinds(m, c - i + 1, SpaceRunEnd(m, c - i + 1), s - i);
    }
    var g := GreedyStart(m, c - i + 1, SpaceRunEnd(m, c - i + 1)).value;
    SliceOfSlice(text, i, end, a, b);
    var h := PositionHeaderAt(m, 0).value;
    DigitsInSlice(m, 9, h - 1);
    DigitsInSlice(text, a, b);
    PlacementAtValue(m, 0, h, a - i, b - i, c - i, g);
  }

  /** Where the lazy capture of a whole match starts: past the dash, within the
      spaces after it, at a character `.` matches, and before the match ends. */
  function CaptureStart(text: string, i: nat): (s: nat)
    requires LayoutMatchAt(text, i).Some?
    ensures PlacementPrefix(text, i).Some?
    ensures var c := PlacementPrefix(text, i).value.2;
      && c < s < LayoutMatchAt(text, i).value
      && s <= SpaceRunEnd(text, c + 1)
      && !IsLineTerminator(text[s])
  {
    var (_, _, c) := PlacementPrefix(text, i).value;
    var (s, e) := Backtrack(text, c + 1, SpaceRunEnd(text, c + 1), PositionHeader).value;
    assert LazyEnd(text, s, e, PositionHeader);
    s
  }

  /** A re-match at the very start of `m` is in particular the leftmost one. */
  lemma RematchAtStartIsFound(m: string)
    requires PlacementAt(m, 0).Some?
    ensures FirstPlacement(m) == PlacementAt(m, 0)
  {
  }

  /** Greedy `(.+)` keeps every space when the run of spaces is followed by a `.` character. */
  lemma GreedyStartKeepsAll(m: string, p: nat, s: nat)
    requires p <= s < |m| && !IsLineTerminator(m[s])
    ensures GreedyStart(m, p, s) == Some(s)
  {
  }

  /** The groups the re-match at `i` reads once its prefix and its `(.+)` start are known. */
  lemma PlacementAtValue(m: string, i: nat, h: nat, a: nat, b: nat, c: nat, s: nat)
    requires PositionHeaderAt(m, i) == Some(h)
    requires PlacementPrefix(m, i) == Some((a, b, c))
    requires GreedyStart(m, c + 1, SpaceRunEnd(m, c + 1)) == Some(s)
    requires i + 9 < h && s <= |m|
    requires AllDigits(m[i + 9..h - 1]) && AllDigits(m[a..b])
    ensures PlacementAt(m, i) == Some(Placement(DigitsValue(m[i + 9..h - 1]), DigitsValue(m[a..b]), Trim(m[s..LineEnd(m, s)])))
  {
    hide PositionHeaderAt, PlacementPrefix, GreedyStart, DigitsValue, Trim, LineEnd, SpaceRunEnd,
      IsTrimmed, Padding, StartsWithIgnoringCase, IsDigit, IsJsSpace, IsLineTerminator, AllDigits;
  }

  /** `m` starts with a clean `Position <p>: <n> - <reasoning>` line: the
      header with the digits `m[9..d]` and its colon at `d`, spaces, the digits
      `m[a..b]`, spaces, the dash at `c`, spaces, then a `.` character. */
  predicate CleanPlacementLine(m: string, d: nat, a: nat, b: nat, c: nat) {
    && StartsWithIgnoringCase(m, 0, "Position ")
    && 9 < d < a < b <= c < |m| && m[d] == ':' && m[c] == '-'
    && (forall k :: 9 <= k < d ==> IsDigit(m[k]))
    && (forall k :: d < k < a ==> IsJsSpace(m[k]))
    && (forall k :: a <= k < b ==> IsDigit(m[k]))
    && (forall k :: b <= k < c ==> IsJsSpace(m[k]))
    && SpaceRunEnd(m, c + 1) < |m| && !IsLineTerminator(m[SpaceRunEnd(m, c + 1)])
  }

  /** The prefix of a clean placement line is found where its parts are. */
  lemma CleanLinePrefix(m: string, d: nat, a: nat, b: nat, c: nat)
    requires CleanPlacementLine(m, d, a, b, c)
    ensures PositionHeaderAt(m, 0) == Some(d + 1)
    ensures PlacementPrefix(m, 0) == Some((a, b, c))
  {
    hide PlacementPrefix, PositionHeaderAt, StartsWithIgnoringCase, SpaceRunEnd, DigitRunEnd;
    PositionHeaderAtIs(m, 0, d);
    PlacementPrefixUnique(m, 0, a, b, c);
  }

  /** A clean placement line re-matches as position `p`, image number `n`, and
      the rest of the line from the first non-space after the dash, trimmed. */
  lemma PlacementOfCleanLine(m: string, d: nat, a: nat, b: nat, c: nat)
    requires CleanPlacementLine(m, d, a, b, c)
    ensures var q := SpaceRunEnd(m, c + 1);
      FirstPlacement(m) == Some(Placement(DigitsValue(m[9..d]), DigitsValue(m[a..b]), Trim(m[q..LineEnd(m, q)])))
  {
    hide CleanPlacementLine, FirstPlacement, PlacementAt, PlacementPrefix, PositionHeaderAt, StartsWithIgnoringCase,
      GreedyStart, DigitsValue, Trim, LineEnd, SpaceRunEnd, DigitRunEnd, Leftmost;
    CleanLinePrefix(m, d, a, b, c);
    var q := SpaceRunEnd(m, c + 1);
    assert GreedyStart(m, c + 1, q) == Some(q) by {
      CleanLineGreedy(m, d, a, b, c);
    }
    DigitsInSlice(m, 9, d);
    DigitsInSlice(m, a, b);
    PlacementAtValue(m, 0, d + 1, a, b, c, q);
    RematchAtStartIsFound(m);
  }

  lemma CleanLineGreedy(m: string, d: nat, a: nat, b: nat, c: nat)
    requires CleanPlacementLine(m, d, a, b, c)
    ensures GreedyStart(m, c + 1, SpaceRunEnd(m, c + 1)) == Some(SpaceRunEnd(m, c + 1))
  {
    GreedyStartKeepsAll(m, c + 1, SpaceRunEnd(m, c + 1));
  }

  /** From `s` to the end, `m` holds no line terminator and, after `s`, no
      `Position <n>:` header. */
  predicate PlainToEnd(m: string, s: nat) {
    && s < |m|
    && (forall k :: s <= k < |m| ==> !IsLineTerminator(m[k]))
    && (forall k :: s < k < |m| ==> PositionHeaderAt(m, k).None?)
  }

  /** The capture of a lazy `(.+?)` started at `s` is the whole rest of the
      text when no line terminator and no `Position <n>:` header follows. */
  lemma CaptureToEnd(m: string, s: nat)
    requires PlainToEnd(m, s)
    ensures LazyCapture(m, s, PositionHeader) == Some(|m|)
  {
    hide PositionHeaderAt, LazyCapture, LazyEndFrom;
    assert LazyEnd(m, s, |m|, PositionHeader);
    assert forall e' :: s < e' < |m| ==> !StopsAt(m, e', PositionHeader);
    LazyCaptureIs(m, s, |m|, PositionHeader);
  }

  /** The whole match at `i` once its prefix and its capture are known. */
  lemma LayoutMatchAtValue(text: string, i: nat, a: nat, b: nat, c: nat, s: nat, e: nat)
    requires PlacementPrefix(text, i) == Some((a, b, c))
    requires s == SpaceRunEnd(text, c + 1) && LazyCapture(text, s, PositionHeader) == Some(e)
    ensures LayoutMatchAt(text, i) == Some(e + TerminatorLength(text, e))
  {
    hide PlacementPrefix, LazyCapture, SpaceRunEnd, TerminatorLength;
  }

  /** A pattern matching at `from` is the next match. */
  lemma NextLayoutMatchAt(text: string, from: nat)
    requires from <= |text| && LayoutMatchAt(text, from).Some?
    ensures NextLayoutMatch(text, from) == Some((from, LayoutMatchAt(text, from).value))
  {
    hide LayoutMatchAt;
    var f := (j: nat) => LayoutMatchAt(text, j);
    assert f(from) == LayoutMatchAt(text, from);
  }

  /** A reply that is one clean placement line, with no `Position <n>:` header
      inside its reasoning and no line break, is one whole match. */
  lemma MatchesOfCleanLine(m: string, a: nat, b: nat, c: nat)
    requires PlacementPrefix(m, 0) == Some((a, b, c))
    requires PlainToEnd(m, SpaceRunEnd(m, c + 1))
    ensures LayoutMatches(m, 0) == [m]
  {
    hide PlainToEnd, LayoutMatchAt, NextLayoutMatch, PlacementPrefix, PositionHeaderAt, StartsWithIgnoringCase,
      Backtrack, LazyCapture, SpaceRunEnd, Leftmost;
    var q := SpaceRunEnd(m, c + 1);
    assert LazyCapture(m, q, PositionHeader) == Some(|m|) by {
      CaptureToEnd(m, q);
    }
    assert LayoutMatchAt(m, 0) == Some(|m|) by {
      LayoutMatchAtValue(m, 0, a, b, c, q, |m|);
      assert PositionHeaderAt(m, |m|).None?;
    }
    assert NextLayoutMatch(m, 0) == Some((0, |m|)) by {
      NextLayoutMatchAt(m, 0);
    }
    assert LayoutMatches(m, |m|) == [] by {
      assert PositionHeaderAt(m, |m|).None?;
      assert LayoutMatchAt(m, |m|).None?;
      LayoutMatchesEmpty(m, |m|);
    }
    assert m[0..|m|] == m;
  }

  /** Every whole match `text[i..e]` of the global pattern matches the
      re-match pattern again. */
  lemma WholeMatchRematches(text: string, i: nat, e: nat)
    requires LayoutMatchAt(text, i) == Some(e)
    ensures FirstPlacement(text[i..e]).Some?
  {
    hide LayoutMatchAt, PlacementAt, FirstPlacement, Backtrack, LazyCapture, PositionHeaderAt,
      StartsWithIgnoringCase, GreedyStart, DigitsValue, PlacementPrefix, SpaceRunEnd, DigitRunEnd, Leftmost;
    var s := CaptureStart(text, i);
    var (a, b, c) := PlacementPrefix(text, i).value;
    assert i <= a && PlacementPrefix(text[i..e], 0) == Some((a - i, b - i, c - i)) by {
      PrefixInSlice(text, i, e);
    }
    RematchFromParts(text, i, e, a, b, c, s);
    RematchAtStartIsFound(text[i..e]);
  }

  /** The re-match of a whole match always succeeds, so `if (posMatch)` never
      skips one: there is one placement per whole match. */
  lemma {:induction false} EveryMatchPlaced(text: string, from: nat)
    ensures |Placements(LayoutMatches(text, from))| == |LayoutMatches(text, from)|
    decreases |text| - from
  {
    match NextLayoutMatch(text, from)
    case None =>
    case Some((i, e)) =>
      assert LayoutMatchAt(text, i) == Some(e);
      var m := text[i..e];
      WholeMatchRematches(text, i, e);
      var ms := LayoutMatches(text, from);
      assert ms == [m] + LayoutMatches(text, e);
      assert ms[1..] == LayoutMatches(text, e);
      EveryMatchPlaced(text, e);
  }

  /** One `forEach` step: an image number in `1..|layout|` moves that entry and
      replaces its reasoning; any other number is ignored. */
  function ApplyPlacement(layout: seq<LayoutEntry>, pl: Placement): seq<LayoutEntry> {
    if 0 < pl.imageNumber <= |layout| then
      var k := pl.imageNumber - 1;
      layout[k := layout[k].(suggestedPosition := pl.position, reasoning := Some(pl.reasoning))]
    else layout
  }

  /** The placements applied in order: `ApplyPlacement(... ApplyPlacement(layout, ps[0]) ..., ps[|ps|-1])`. */
  function ApplyPlacements(layout: seq<LayoutEntry>, ps: seq<Placement>): seq<LayoutEntry>
    decreases |ps|
  {
    if ps == [] then layout
    else ApplyPlacement(ApplyPlacements(layout, ps[..|ps| - 1]), ps[|ps| - 1])
  }

  /** The last placement that names image `n`: the one that decides its entry. */
  function LastPlacementFor(ps: seq<Placement>, n: nat): (r: Option<Placement>)
    ensures r.None? <==> forall j :: 0 <= j < |ps| ==> ps[j].imageNumber != n
    ensures r.Some? ==> exists j: nat :: LastNaming(ps, n, j) && ps[j] == r.value
    decreases |ps|
  {
    if ps == [] then None
    else if ps[|ps| - 1].imageNumber == n then
      assert LastNaming(ps, n, |ps| - 1);
      Some(ps[|ps| - 1])
    else
      LastNamingBeforeLast(ps, n);
      LastPlacementFor(ps[..|ps| - 1], n)
  }

  /** When the last placement does not name `n`, the last one naming `n` is
      found among the others, at the same index. */
  lemma LastNamingBeforeLast(ps: seq<Placement>, n: nat)
    requires ps != [] && ps[|ps| - 1].imageNumber != n
    ensures forall j: nat :: LastNaming(ps[..|ps| - 1], n, j) <==> LastNaming(ps, n, j)
    ensures forall j :: 0 <= j < |ps| - 1 ==> ps[..|ps| - 1][j] == ps[j]
  {
  }

  /** `ps[j]` names image `n`, and no later placement does. */
  predicate LastNaming(ps: seq<Placement>, n: nat, j: nat) {
    && j < |ps|
    && ps[j].imageNumber == n
    && forall j' :: j < j' < |ps| ==> ps[j'].imageNumber != n
  }

  /** What entry `k` becomes: the last placement naming image `k + 1` sets its
      position and reasoning; without one, the entry is untouched. */
  function Placed(entry: LayoutEntry, last: Option<Placement>): LayoutEntry {
    match last
    case None => entry
    case Some(pl) => entry.(suggestedPosition := pl.position, reasoning := Some(pl.reasoning))
  }

  /** Applying placements in order is the same as letting, for each entry on its
      own, the last placement that names it win. */
  lemma {:induction false} ApplyPlacementsLastWins(layout: seq<LayoutEntry>, ps: seq<Placement>)
    ensures |ApplyPlacements(layout, ps)| == |layout|
    ensures forall k :: 0 <= k < |layout| ==>
      ApplyPlacements(layout, ps)[k] == Placed(layout[k], LastPlacementFor(ps, k + 1))
    decreases |ps|
  {
    if ps != [] {
      ApplyPlacementsLastWins(layout, ps[..|ps| - 1]);
    }
  }

  /** The layout read from the reply: the identity layout with default
      reasoning, changed only by the placements that name an image in range.
      Every entry keeps its image and has a reasoning. */
  function ParseLayout(content: string, images: seq<ImageDescription>): (r: seq<LayoutEntry>)
    ensures |r| == |images|
    ensures forall k :: 0 <= k < |r| ==> r[k].image == images[k] && r[k].reasoning.Some?
    ensures forall k :: 0 <= k < |r| ==>
      r[k] == Placed(LayoutEntry(images[k], k + 1, Some(DefaultReasoning)),
                     LastPlacementFor(Placements(LayoutMatches(content, 0)), k + 1))
  {
    var base := IdentityLayout(images, Some(DefaultReasoning));
    var ps := Placements(LayoutMatches(content, 0));
    ApplyPlacementsLastWins(base, ps);
    ApplyPlacements(base, ps)
  }

  /** A reply without any `Position <n>:` header leaves the identity layout,
      with default reasoning, untouched. */
  lemma NoHeaderKeepsIdentity(content: string, images: seq<ImageDescription>)
    requires forall i: nat :: PositionHeaderAt(content, i).None?
    ensures ParseLayout(content, images) == IdentityLayout(images, Some(DefaultReasoning))
  {
    assert forall j: nat :: LayoutMatchAt(content, j).None?;
    LayoutMatchesEmpty(content, 0);
    var r := ParseLayout(content, images);
    assert forall k :: 0 <= k < |r| ==> r[k] == LayoutEntry(images[k], k + 1, Some(DefaultReasoning));
  }

  /** A short placement line `Position D: N - X…` with single-digit numbers and
      single spaces is clean, and its reasoning starts at 16. */
  lemma ShortLineClean(m: string)
    requires 16 < |m| && StartsWithIgnoringCase(m, 0, "Position ")
    requires IsDigit(m[9]) && m[10] == ':' && m[11] == ' ' && IsDigit(m[12])
    requires m[13] == ' ' && m[14] == '-' && m[15] == ' ' && !IsJsSpace(m[16])
    ensures CleanPlacementLine(m, 10, 12, 13, 14)
    ensures SpaceRunEnd(m, 15) == 16
  {
    hide SpaceRunEnd, DigitRunEnd, LineEnd, Trim, DigitsValue, StartsWithIgnoringCase;
    RunEndAt(m, 15, 16, IsJsSpace);
  }

  /** Such a short line re-matches as its two digits and its trimmed reasoning. */
  lemma ShortLinePlacement(m: string)
    requires 16 < |m| && StartsWithIgnoringCase(m, 0, "Position ")
    requires IsDigit(m[9]) && m[10] == ':' && m[11] == ' ' && IsDigit(m[12])
    requires m[13] == ' ' && m[14] == '-' && m[15] == ' ' && !IsJsSpace(m[16])
    ensures FirstPlacement(m) == Some(Placement(DigitValue(m[9]), DigitValue(m[12]), Trim(m[16..LineEnd(m, 16)])))
  {
    hide FirstPlacement, PlacementAt, PlacementPrefix, PositionHeaderAt, GreedyStart, DigitsValue, Trim,
      LineEnd, SpaceRunEnd, DigitRunEnd, Leftmost, CleanPlacementLine, StartsWithIgnoringCase;
    ShortLineClean(m);
    PlacementOfCleanLine(m, 10, 12, 13, 14);
    SingleDigitValue(m[9..10]);
    SingleDigitValue(m[12..13]);
  }

  /** The one-line reply used by `ParseLayoutExample`. */
  const ExampleReply: string := "Position 2: 1 - looks bright"

  /** The reply starts with `Position `. */
  lemma ExampleReplyHeader()
    ensures StartsWithIgnoringCase(ExampleReply, 0, "Position ")
  {
    hide SpaceRunEnd, DigitRunEnd, LineEnd, Trim, DigitsValue;
    assert ExampleReply[..9] == "Position ";
  }

  /** The reasoning of the example reply: `looks bright`, running to its end. */
  lemma ExampleReplyReasoning()
    ensures LineEnd(ExampleReply, 16) == 28 && Trim(ExampleReply[16..28]) == "looks bright"
  {
    hide Trim, LineEnd, DigitsValue, SpaceRunEnd, DigitRunEnd, TrimStart, TrimEnd;
    assert Trim(ExampleReply[16..28]) == "looks bright" by {
      assert forall k :: 0 <= k < 12 ==> ExampleReply[16..28][k] == "looks bright"[k];
      assert ExampleReply[16..28] == "looks bright";
      TrimOfTrimmed("looks bright");
    }
    LineEndOfLastLine(ExampleReply, 16);
  }

  /** The reply re-matches as position 2, image 1, reasoning `looks bright`. */
  lemma ExampleReplyPlacement()
    ensures FirstPlacement(ExampleReply) == Some(Placement(2, 1, "looks bright"))
    ensures PlacementPrefix(ExampleReply, 0) == Some((12, 13, 14))
    ensures SpaceRunEnd(ExampleReply, 15) == 16
  {
    var m := ExampleReply;
    hide FirstPlacement, PlacementAt, PlacementPrefix, PositionHeaderAt, GreedyStart, DigitsValue, Trim,
      LineEnd, SpaceRunEnd, DigitRunEnd, Leftmost, CleanPlacementLine, StartsWithIgnoringCase;
    ExampleReplyHeader();
    assert m[9] == '2' && m[10] == ':' && m[11] == ' ' && m[12] == '1' && m[13] == ' ' && m[14] == '-';
    assert m[15] == ' ' && m[16] == 'l';
    ShortLineClean(m);
    CleanLinePrefix(m, 10, 12, 13, 14);
    ShortLinePlacement(m);
    ExampleReplyReasoning();
  }

  /** After its `l`, the reasoning holds no line break and no header. */
  lemma ExampleReplyPlain()
    ensures PlainToEnd(ExampleReply, 16)
  {
    var m := ExampleReply;
    hide SpaceRunEnd, DigitRunEnd, LineEnd, Trim, DigitsValue, PositionHeaderAt;
    forall k | 16 < k < |m| ensures PositionHeaderAt(m, k).None? {
      assert !StartsWithIgnoringCase(m, k, "Position ") by {
        if k + 9 <= |m| {
          assert m[k] in "ook";
          assert UpperAscii(m[k]) != UpperAscii("Position "[0]);
        }
      }
    }
  }

  /** The reply is one whole match, and it re-matches as one placement. */
  lemma ExampleReplyPlacements()
    ensures Placements(LayoutMatches(ExampleReply, 0)) == [Placement(2, 1, "looks bright")]
  {
    var m := ExampleReply;
    hide FirstPlacement, PlacementAt, PlacementPrefix, PositionHeaderAt, GreedyStart, DigitsValue, Trim,
      LineEnd, SpaceRunEnd, DigitRunEnd, Leftmost, LayoutMatches, PlainToEnd, LayoutMatchAt, NextLayoutMatch;
    ExampleReplyPlacement();
    ExampleReplyPlain();
    MatchesOfCleanLine(m, 12, 13, 14);
    assert Placements([m]) == [Placement(2, 1, "looks bright")] + Placements([m][1..]);
  }

  /** With three images, the reply `Position 2: 1 - looks bright` moves image 1
      to position 2 with the reasoning `looks bright`; images 2 and 3 keep their
      positions and the default reasoning. */
  lemma ParseLayoutExample(images: seq<ImageDescription>)
    requires |images| == 3
    ensures ParseLayout(ExampleReply, images) == [
      LayoutEntry(images[0], 2, Some("looks bright")),
      LayoutEntry(images[1], 2, Some(DefaultReasoning)),
      LayoutEntry(images[2], 3, Some(DefaultReasoning))]
  {
    var pl := Placement(2, 1, "looks bright");
    hide Placements, LayoutMatches, ParseLayout, ApplyPlacements, IdentityLayout, FirstPlacement;
    ExampleReplyPlacements();
    var r := ParseLayout(ExampleReply, images);
    assert |r| == 3;
    assert r[0] == LayoutEntry(images[0], 2, Some("looks bright")) by {
      assert LastPlacementFor([pl], 1) == Some(pl);
    }
    assert r[1] == LayoutEntry(images[1], 2, Some(DefaultReasoning)) by {
      assert LastPlacementFor([pl], 2) == None;
    }
    assert r[2] == LayoutEntry(images[2], 3, Some(DefaultReasoning)) by {
      assert LastPlacementFor([pl], 3) == None;
    }
  }

  /** The two-line reply used by `ParseLayoutTwoLines`: image 1 is placed twice. */
  const FirstLine: string := "Position 1: 1 - a\n"
  const SecondLine: string := "Position 2: 1 - b"
  const TwoLineReply: string := FirstLine + SecondLine

  /** Both lines start with `Position `, the second one at 18 of the reply. */
  lemma TwoLineHeaders()
    ensures StartsWithIgnoringCase(FirstLine, 0, "Position ")
    ensures StartsWithIgnoringCase(SecondLine, 0, "Position ")
    ensures StartsWithIgnoringCase(TwoLineReply, 0, "Position ")
    ensures StartsWithIgnoringCase(TwoLineReply, 18, "Position ")
  {
    hide SpaceRunEnd, DigitRunEnd, LineEnd, Trim, DigitsValue;
    assert FirstLine[..9] == "Position ";
    assert SecondLine[..9] == "Position ";
    assert TwoLineReply[..9] == "Position ";
    assert TwoLineReply[18..27] == "Position ";
  }

  /** The first whole match is the first line with its line break. */
  lemma TwoLineFirstMatch()
    ensures LayoutMatchAt(TwoLineReply, 0) == Some(18)
  {
    var t := TwoLineReply;
    hide LayoutMatchAt, PlacementPrefix, PositionHeaderAt, LazyCapture, LazyEndFrom, Backtrack, SpaceRunEnd,
      DigitRunEnd, LineEnd, Trim, DigitsValue, StartsWithIgnoringCase, CleanPlacementLine;
    TwoLineHeaders();
    assert t[9] == '1' && t[10] == ':' && t[11] == ' ' && t[12] == '1' && t[13] == ' ' && t[14] == '-';
    assert t[15] == ' ' && t[16] == 'a' && t[17] == '\n';
    ShortLineClean(t);
    CleanLinePrefix(t, 10, 12, 13, 14);
    assert LazyCapture(t, 16, PositionHeader) == Some(17) by {
      LazyCaptureIs(t, 16, 17, PositionHeader);
    }
    LayoutMatchAtValue(t, 0, 12, 13, 14, 16, 17);
    assert TerminatorLength(t, 17) == 1;
  }

  /** After the line break the second line is one clean placement line. */
  lemma TwoLineSecondPrefix()
    ensures PlacementPrefix(TwoLineReply, 18) == Some((30, 31, 32))
    ensures SpaceRunEnd(TwoLineReply, 33) == 34
  {
    var t := TwoLineReply;
    hide PlacementPrefix, PositionHeaderAt, SpaceRunEnd, DigitRunEnd, LineEnd, Trim, DigitsValue,
      StartsWithIgnoringCase;
    TwoLineHeaders();
    assert t[27] == '2' && t[28] == ':' && t[29] == ' ' && t[30] == '1' && t[31] == ' ' && t[32] == '-';
    assert t[33] == ' ' && t[34] == 'b';
    PositionHeaderAtIs(t, 18, 28);
    PlacementPrefixUnique(t, 18, 30, 31, 32);
    RunEndAt(t, 33, 34, IsJsSpace);
  }

  /** The second whole match runs from 18 to the end of the reply. */
  lemma TwoLineSecondMatch()
    ensures LayoutMatchAt(TwoLineReply, 18) == Some(35)
  {
    var t := TwoLineReply;
    hide LayoutMatchAt, PlacementPrefix, PositionHeaderAt, LazyCapture, LazyEndFrom, Backtrack, SpaceRunEnd,
      DigitRunEnd, LineEnd, Trim, DigitsValue, StartsWithIgnoringCase;
    TwoLineSecondPrefix();
    assert PlainToEnd(t, 34) by {
      assert |t| == 35 && t[34] == 'b';
    }
    CaptureToEnd(t, 34);
    LayoutMatchAtValue(t, 18, 30, 31, 32, 34, 35);
    assert TerminatorLength(t, 35) == 0;
  }

  /** The reply's whole matches are its two lines, in order. */
  lemma TwoLineMatches()
    ensures LayoutMatches(TwoLineReply, 0) == [FirstLine, SecondLine]
  {
    var t := TwoLineReply;
    hide LayoutMatchAt, LayoutMatches, NextLayoutMatch;
    TwoLineFirstMatch();
    TwoLineSecondMatch();
    LayoutMatchesStep(t, 0, 0, 18);
    LayoutMatchesStep(t, 18, 18, 35);
    LayoutMatchesEmpty(t, 35);
    assert t[0..18] == FirstLine;
    assert t[18..35] == SecondLine;
  }

  /** The first line re-matches as position 1, image 1, reasoning `a`. */
  lemma FirstLinePlacement()
    ensures FirstPlacement(FirstLine) == Some(Placement(1, 1, "a"))
  {
    var m := FirstLine;
    hide FirstPlacement, DigitsValue, Trim, LineEnd, SpaceRunEnd, DigitRunEnd, StartsWithIgnoringCase;
    TwoLineHeaders();
    assert m[9] == '1' && m[10] == ':' && m[11] == ' ' && m[12] == '1' && m[13] == ' ' && m[14] == '-';
    assert m[15] == ' ' && m[16] == 'a' && m[17] == '\n';
    ShortLinePlacement(m);
    assert Trim(m[16..LineEnd(m, 16)]) == "a" by {
      assert LineEnd(m, 16) == 17;
      assert m[16..17] == "a";
      TrimOfTrimmed("a");
    }
  }

  /** The second line re-matches as position 2, image 1, reasoning `b`. */
  lemma SecondLinePlacement()
    ensures FirstPlacement(SecondLine) == Some(Placement(2, 1, "b"))
  {
    var m := SecondLine;
    hide FirstPlacement, DigitsValue, Trim, LineEnd, SpaceRunEnd, DigitRunEnd, StartsWithIgnoringCase;
    TwoLineHeaders();
    assert m[9] == '2' && m[10] == ':' && m[11] == ' ' && m[12] == '1' && m[13] == ' ' && m[14] == '-';
    assert m[15] == ' ' && m[16] == 'b';
    ShortLinePlacement(m);
    assert Trim(m[16..LineEnd(m, 16)]) == "b" by {
      LineEndOfLastLine(m, 16);
      assert m[16..17] == "b";
      TrimOfTrimmed("b");
    }
  }

  /** The two lines re-match in order. */
  lemma TwoLinePlacements()
    ensures Placements([FirstLine, SecondLine]) == [Placement(1, 1, "a"), Placement(2, 1, "b")]
  {
    hide FirstPlacement;
    FirstLinePlacement();
    SecondLinePlacement();
    assert [FirstLine, SecondLine][1..] == [SecondLine];
    assert [SecondLine][1..] == [];
  }

  /** With one image, the reply `Position 1: 1 - a` / `Position 2: 1 - b` places
      image 1 twice and the later line wins: position 2, reasoning `b`. */
  lemma ParseLayoutTwoLines(image: ImageDescription)
    ensures ParseLayout(TwoLineReply, [image]) == [LayoutEntry(image, 2, Some("b"))]
  {
    var p1 := Placement(1, 1, "a");
    var p2 := Placement(2, 1, "b");
    hide Placements, LayoutMatches, ParseLayout, ApplyPlacements, IdentityLayout, FirstPlacement;
    TwoLineMatches();
    TwoLinePlacements();
    var r := ParseLayout(TwoLineReply, [image]);
    assert LastPlacementFor([p1, p2], 1) == Some(p2);
  }

  /** `parseFinalBrochureContent`. A missing label gives the literal fallback;
      a label whose group trims to nothing gives the empty string. */
  function ParseFinalBrochureContent(content: string, images: seq<ImageDescription>): (r: FinalContent)
    ensures ExtractFinalTitle(content).None? ==> r.finalTitle == TitleFallback
    ensures ExtractFinalTitle(content).Some? ==> r.finalTitle == ExtractFinalTitle(content).value
    ensures ExtractFinalDescription(content).None? ==> r.finalDescription == DescriptionFallback
    ensures ExtractFinalDescription(content).Some? ==> r.finalDescription == ExtractFinalDescription(content).value
    ensures r.imageLayout == ParseLayout(content, images)
  {
    FinalContent(
      ExtractFinalTitle(content).GetOr(TitleFallback),
      ExtractFinalDescription(content).GetOr(DescriptionFallback),
      ParseLayout(content, images))
  }
}

=== FILE: optional.dfy ===
/** A value that may be absent: the model's stand-in for JavaScript's `null`
    results (a failed regex match, a failed model call). */
module Optional {

  datatype Option<+T> = None | Some(value: T) {

    /** The value, or `default` when absent. */
    function GetOr(default: T): T {
      match this
      case Some(v) => v
      case None => default
    }
  }
}

=== FILE: search.dfy ===
/** The left-to-right scan shared by every non-global regular-expression
    match in the model: try each start offset in turn and stop at the first
    that matches. */
module Search {
  import opened Optional

  /** The least index in `[from, limit]` at which `f` gives a value, with that value. */
  function Leftmost<T(==)>(f: nat -> Option<T>, from: nat, limit: nat): (r: Option<(nat, T)>)
    ensures r.Some? ==> from <= r.value.0 <= limit && f(r.value.0) == Some(r.value.1)
    ensures r.Some? ==> forall j :: from <= j < r.value.0 ==> f(j).None?
    ensures r.None? <==> forall j :: from <= j <= limit ==> f(j).None?
    decreases limit + 1 - from
  {
    if from > limit then None
    else match f(from)
      case Some(v) => Some((from, v))
      case None => Leftmost(f, from + 1, limit)
  }

  /** Indices where `f` gives nothing are passed over. */
  lemma {:induction false} LeftmostSkips<T>(f: nat -> Option<T>, from: nat, next: nat, limit: nat)
    requires from <= next
    requires forall j :: from <= j < next ==> f(j).None?
    ensures Leftmost(f, from, limit) == Leftmost(f, next, limit)
    decreases next - from
  {
    if from < next {
      LeftmostSkips(f, from + 1, next, limit);
    }
  }
}
